=== FILE: README.md ===
# YouTube live-chat trivia bot — core model

This project models three parts of a trivia bot for YouTube live chat:

- **The chat-connection poller** (`backend/services/youtubeConnection.js`).
  It holds one binding to a live chat, a page cursor into the chat feed and
  the set of message ids already delivered. It also holds a set of
  subscribers, and it hands every new message to each of them.
- **The trivia engine** (`backend/services/triviaEngine.js`). It runs a
  three-stage cycle on a ten-second timer: ask the question, give a hint,
  reveal the answer. On a two-second timer it polls the chat. A message
  containing `!stop` ends the game. The first message containing the
  answer, compared case-insensitively, earns its author a point and brings
  up the next question.
- **The question-file parser** (`parseText` in
  `frontend/src/components/ImportQuestionsFromFile.jsx`). It reads one
  `Question|Answer` pair per line and skips blank lines and `#` comments.

Each entry point is a pure function from one immutable state record to the
next. Every outside effect becomes an explicit parameter:

| effect | parameter |
|---|---|
| the chat feed's reply | `Fetch` (a batch, or `FetchFailed`) |
| whether the chat accepted a post | `sendOk` |
| the clock | `now` |
| the random question index | `pick` |
| the question store | a sequence of `Question`s |
| the score collection | a map from user name to score |

The messages the engine posts are recorded in an append-only log of `Post`s.

Modules:

| module | file | contents |
|---|---|---|
| `Wrappers` | `wrappers.dfy` | `Option` and `Result` |
| `Text` | `text.dfy` | JavaScript `trim`, `toLowerCase`, `includes`, and `split` on one character, with their laws |
| `Chat` | `chat.dfy` | the messages and batches the feed returns |
| `Poller` | `poller.dfy` | the poller |
| `Trivia` | `trivia.dfy` | the engine |
| `QuestionImport` | `question_import.dfy` | the parser |

Behaviour of the code that the model keeps as it is:

- `start` does not check that a chat connection exists.
- The chat poll skips only messages whose author is exactly `Trivia Bot`.
- `!stop` is matched as a case-sensitive substring anywhere in the message, not as a whole command.
- A question runs through a three-stage ask/hint/reveal cycle, one stage per ten-second tick.
- An empty question store gives the placeholder question "No questions yet" with an empty answer.
- `stop` leaves the question, answer, stage and answered flag untouched.
- The engine fetches the chat feed itself through `fetchNewMessages`; it does not subscribe to the poller.

## Model

| member | source | states |
|---|---|---|
| Poller.InitialIsValid | backend/services/youtubeConnection.js:14-28 | The freshly constructed poller satisfies the connection invariant: no binding, no cursor, no seen ids, no scheduled poll, no duplicate subscribers. |
| Poller.OnMessage | backend/services/youtubeConnection.js:30-31 | Subscribing adds the handler to the subscriber set. A new handler goes last in iteration order, as in a JavaScript `Set`; a handler already present is not added twice. No other field changes, and the invariant is kept. |
| Poller.Unsubscribe | backend/services/youtubeConnection.js:32 | The returned unsubscribe function removes exactly that handler and keeps the others. No other field changes, and the invariant is kept. |
| Poller.Remove | backend/services/youtubeConnection.js:32 | Deleting from the handler set keeps every other handler, in registration order, and drops the deleted one. |
| Poller.RemoveKeepsDistinct | backend/services/youtubeConnection.js:32 | Deleting a handler from a duplicate-free handler sequence leaves it duplicate-free. |
| Poller.SubscribeThenUnsubscribe | backend/services/youtubeConnection.js:30-33 | Subscribing a new handler and then calling the returned unsubscribe restores the poller exactly. |
| Poller.GetState | backend/services/youtubeConnection.js:68-76 | The report copies the connection flag, chat id, owner and last-message time from the state. In a reachable state its `handlerCount` is the number of distinct subscribers (the `Set`'s size), and it shows a chat id and an owner exactly while connected and no last-message time while disconnected. |
| Poller.Disconnect | backend/services/youtubeConnection.js:53-66 | Disconnecting clears the binding, owner, cursor, seen ids, last-message time and pending poll. It keeps the subscribers. |
| Poller.DisconnectIdempotent | backend/services/youtubeConnection.js:53-66 | Disconnecting twice is the same as disconnecting once. |
| Poller.Connect | backend/services/youtubeConnection.js:35-51 | An empty chat id throws "liveChatId is required", and only an empty id throws. Connecting to the chat already bound changes nothing. Any other chat resets the cursor, seen ids and marker, binds the new chat and owner, keeps the subscribers, and polls immediately. The invariant is kept. |
| Poller.ConnectSameReportsState | backend/services/youtubeConnection.js:37 | Reconnecting to the bound chat succeeds and reports the unchanged state. |
| Poller.NextInterval | backend/services/youtubeConnection.js:98-101 | The next delay is the feed's suggestion exactly when that is a positive number, and 2000 ms otherwise. It is always positive. |
| Poller.AdvanceCursor | backend/services/youtubeConnection.js:85 | The cursor becomes the returned token exactly when that token is non-empty, and otherwise stays as it was. An existing cursor is never lost. |
| Poller.DedupBatch | backend/services/youtubeConnection.js:87-89 | After a batch, the seen set is the old set plus every id in the batch. The ids delivered are exactly the batch's ids that were not seen before. |
| Poller.DedupSound | backend/services/youtubeConnection.js:87-89 | Every delivered message is the first occurrence in the batch of an id not seen before. |
| Poller.DedupComplete | backend/services/youtubeConnection.js:87-89 | Every first occurrence of an unseen id is delivered. |
| Poller.DedupDistinctInOrder | backend/services/youtubeConnection.js:87-89 | No id is delivered twice within a batch. The delivered messages sit at positions of the batch that are strictly increasing, each holding the first occurrence of an unseen id, and every such position is used: the first copy of a repeated message is the one delivered, in batch order. |
| Poller.DedupPositions | backend/services/youtubeConnection.js:87-89 | The loop's kept list has a strictly increasing list of batch positions, exactly the first occurrences of ids not seen before, with each kept message equal to the message at its position. |
| Poller.KeptAtFirstNewUnique | backend/services/youtubeConnection.js:87-89 | Any list of messages described by such positions is the loop's kept list, so the positional description pins the delivery order. |
| Poller.FanOut | backend/services/youtubeConnection.js:93-95 | Broadcasting `M` new messages to `H` subscribers makes exactly `M*H` handler invocations. |
| Poller.FanOutAt | backend/services/youtubeConnection.js:87-95 | Handler invocation number `i*H + j` hands new message `i` to handler `j`: every message goes to every subscriber, messages in order, handlers in registration order. |
| Poller.Poll | backend/services/youtubeConnection.js:78-107 | Without a binding, a poll does nothing. A failed request changes only the schedule, to the 5000 ms retry. A batch moves the cursor to the returned token when that is non-empty and keeps it otherwise. It records every id as seen, and what it delivers to all handlers is exactly the batch's unseen messages, each id once, first occurrence, in batch order. It sets the last-message time only when something was new and schedules the next poll by the interval rule. It changes nothing else and keeps the invariant. |
| Poller.CursorNeverRegresses | backend/services/youtubeConnection.js:85 | The cursor changes only to a non-empty token returned by the feed, so it is never dropped. An active poll that receives a non-empty token always adopts it. |
| Poller.DeliveredAtMostOnce | backend/services/youtubeConnection.js:78-96 | Across any number of polls of one binding, with any duplicates in the replies, no id is delivered twice. Nothing seen before is delivered, and everything delivered is then seen. |
| Poller.RebindForgetsSeen | backend/services/youtubeConnection.js:39-49 | After binding to a different chat, the first batch delivers every id it holds, even ids the previous binding had already seen. |
| Trivia.InitialIsValid | backend/services/triviaEngine.js:7-20 | The freshly constructed engine satisfies the engine invariant: stage in 0..2, timers armed exactly while running, question and answer set together. |
| Trivia.AwardPoint | backend/services/triviaEngine.js:158-165 | The user's score goes up by exactly one, and a missing record counts as 0 (upsert). Every other user's score is unchanged, and only that user's record can be new. |
| Trivia.LoadNewQuestion | backend/services/triviaEngine.js:62-86 | An empty store gives the placeholder question with an empty answer and no id, and leaves stage and answered flag alone. Otherwise a stored question is copied with its own answer and id, at stage 0 and unanswered. Nothing else changes. |
| Trivia.Start | backend/services/triviaEngine.js:22-38 | Starting a running game is a no-op. Otherwise the game runs on the given chat at stage 0, unanswered, with both timers armed (10 s and 2 s). A non-empty store loads the picked question with its answer and id; an empty store loads the "No questions yet" placeholder with an empty answer. The chat cursor and the ask time are untouched. The start announcement is posted when the chat accepts it. Scores are untouched and the invariant is kept. |
| Trivia.StartAnnouncementOnlyLogs | backend/services/triviaEngine.js:22-38 | Whether the start announcement is accepted changes only the chat log. The engine is running and the scores are the same either way; a rejected announcement is the case in which `start()` rejects. |
| Trivia.Stop | backend/services/triviaEngine.js:40-46 | Stopping clears the running flag and both timers and changes nothing else. |
| Trivia.StartStopIdempotent | backend/services/triviaEngine.js:22-46 | A second start changes nothing, and a second stop changes nothing. |
| Trivia.StopKeepsSnapshot | backend/services/triviaEngine.js:40-60 | After a stop, the reported state differs only in the running flag. |
| Trivia.GetState | backend/services/triviaEngine.js:52-60 | The dashboard view reports exactly the engine's running flag, question, stage, answered flag and ask time, and never the answer. In a reachable state it reports stage 0, 1 or 2. |
| Trivia.Tick | backend/services/triviaEngine.js:88-110 | A tick does nothing unless the game runs with a non-empty question. Stage 0 moves to stage 1 and records the ask time. Stage 1 moves to stage 2. Both advances happen whether or not the post is accepted, because the fields are set before the post. At stage 2 an accepted reveal posts the answer (or "null") and reloads exactly as `_loadNewQuestion()` does, on any store; a rejected reveal changes nothing. A tick never changes scores, posts at most one message (only when the chat accepts it), and keeps the invariant. |
| Trivia.TickCycle | backend/services/triviaEngine.js:88-110 | Three accepted ticks from stage 0 post the question, the hint and the answer, in that order. They record the ask time and bring up the next stored question at stage 0, unanswered. |
| Trivia.FirstAction | backend/services/triviaEngine.js:122-151 | The chat loop acts on the first non-bot message that either carries `!stop` or, while the question is open, contains the answer case-insensitively. `!stop` takes precedence within one message. No earlier message acts. |
| Trivia.PollChat | backend/services/triviaEngine.js:112-156 | An inactive engine or a failed fetch changes nothing. Otherwise the cursor takes the returned token. A batch in which no message acts changes only the cursor. A stop command as the first acting message stops the engine exactly as `stop()` does and posts who stopped it when the chat accepts. A match as the first acting message marks the question answered; if the credit post is accepted, the author gains a point, the credit is posted and a question is reloaded, and if it is rejected nothing else changes. At most one message is posted. Scores change only by one point to the author of a matching message while the question was open. The invariant is kept. |
| Trivia.EmptyAnswerMatchesAll | backend/services/triviaEngine.js:137 | Every message contains the empty answer, so only the poll's truthiness guard on the answer prevents an empty answer from crediting everyone. |
| Trivia.NoCreditOnceAnswered | backend/services/triviaEngine.js:136-139 | Once the question is answered, no message earns a point. |
| Trivia.StopCommandStops | backend/services/triviaEngine.js:129-133 | When the first acting message carries `!stop`, the engine ends up exactly as `stop()` leaves it (running off, both timers cleared) with the cursor advanced, and "stopped by" names that message's author when the chat accepts the post. Nobody is credited, and the question is untouched. |
| Trivia.MatchCreditsOnce | backend/services/triviaEngine.js:136-150 | With a non-empty store, when the first acting message matches and the credit is posted, its author alone gains exactly one point. The credit names the author and the answer, and the next question opens at stage 0. |
| Trivia.FailedCreditPostKeepsAnswered | backend/services/triviaEngine.js:140-146 | If posting the credit fails, the question stays marked answered. No point is awarded and no new question is loaded. |
| Trivia.CreditOnEmptyStoreSilencesPoll | backend/services/triviaEngine.js:112-150 | With an empty store, a posted credit reloads the placeholder with an empty answer and leaves the question marked answered, so the game keeps running but the chat poll no longer acts. |
| Trivia.OneQuestionRound | backend/services/triviaEngine.js:112-150 | With one stored question "2+2"/"4": start and a tick post the question. A batch holding the bot's own "the answer is 4" and then Bob's "the answer is 4!!" gives Bob one point and the bot none. It posts the credit and reloads the question at stage 0, unanswered, ready to be asked on the next tick. |
| QuestionImport.LinesCount | frontend/src/components/ImportQuestionsFromFile.jsx:18 | Splitting on `\r?\n` gives one line per piece between line feeds, which is one more than the number of line feeds, and the last piece is kept whole. |
| QuestionImport.Lines | frontend/src/components/ImportQuestionsFromFile.jsx:18 | Splitting always yields at least one line, even for empty text. |
| QuestionImport.LinesLackLineFeed | frontend/src/components/ImportQuestionsFromFile.jsx:18 | No line holds a line feed. |
| QuestionImport.LinesAreTrimmedPieces | frontend/src/components/ImportQuestionsFromFile.jsx:18 | A piece before a line feed that ends in a carriage return is its line followed by that one carriage return, which the separator consumes; any other piece is its line unchanged. |
| QuestionImport.ParseLine | frontend/src/components/ImportQuestionsFromFile.jsx:21-31 | A blank line, a `#` comment and a line without a bar (`U+007C`) yield nothing. An entry's question is non-empty and begins with the line's first non-space character. Both texts are trimmed and free of bars. |
| QuestionImport.NoBarNoEntry | frontend/src/components/ImportQuestionsFromFile.jsx:25-26 | A line without a bar has a single field and is skipped. |
| QuestionImport.FieldsDecide | frontend/src/components/ImportQuestionsFromFile.jsx:25-31 | The first two bar-separated fields alone decide the result. Either empty, or a leading `#`, skips the line; otherwise the entry is the two fields trimmed. |
| QuestionImport.ExtraFieldsIgnored | frontend/src/components/ImportQuestionsFromFile.jsx:25 | Fields after the second are ignored. |
| QuestionImport.FormatThenParse | frontend/src/components/ImportQuestionsFromFile.jsx:21-31 | A well-formed entry with a non-empty answer, written as question, bar, answer, parses back to itself. |
| QuestionImport.BlankAnswerGivesEmpty | frontend/src/components/ImportQuestionsFromFile.jsx:25-30 | A whitespace-only second field passes the emptiness check, which looks at the field before trimming, and yields an entry with an empty answer. |
| QuestionImport.BlankAnswerAccepted | frontend/src/components/ImportQuestionsFromFile.jsx:25-30 | Concretely, the line `Q`, a bar, three spaces, a bar and `x` imports as question `Q` with answer "". |
| QuestionImport.DropCRKeepsParse | frontend/src/components/ImportQuestionsFromFile.jsx:18-22 | Removing a line's trailing carriage return never changes its parse. |
| QuestionImport.CarriageReturnsIrrelevant | frontend/src/components/ImportQuestionsFromFile.jsx:18-22 | Splitting on `\r?\n` and splitting on `\n` alone import the same entries. |
| QuestionImport.CollectFollowsResults | frontend/src/components/ImportQuestionsFromFile.jsx:19-32 | Collected entry `k` is the result at the `k`-th accepted position. Accepted positions ascend, and a position is accepted exactly when its result holds an entry. |
| QuestionImport.EntriesFollowLines | frontend/src/components/ImportQuestionsFromFile.jsx:19-34 | Imported entry `k` is the parse of the `k`-th accepted line. Accepted lines ascend, and a line contributes exactly when it parses to an entry, so order is kept and nothing is invented or lost. |
| QuestionImport.EntriesWellFormed | frontend/src/components/ImportQuestionsFromFile.jsx:17-35 | Every imported entry is well-formed. One with a non-empty answer re-exports to a line that imports as the same entry. |
| QuestionImport.ParseEach | frontend/src/components/ImportQuestionsFromFile.jsx:21-32 | The loop appends each line's entry in turn and yields the line-by-line parse, with at most one entry per line. |
| QuestionImport.ParseText | frontend/src/components/ImportQuestionsFromFile.jsx:17-35 | `parseText` yields the entries of the text's lines in order. It yields no more entries than lines, and every entry is well-formed. |
| Text.Trim | frontend/src/components/ImportQuestionsFromFile.jsx:22 | `trim` returns a contiguous slice of its input with no space at either end. |
| Text.TrimRemovesOnlySpaces | frontend/src/components/ImportQuestionsFromFile.jsx:22 | Everything `trim` removes is whitespace, and the result is empty exactly when the input is all whitespace. |
| Text.TrimOfTrimmed | frontend/src/components/ImportQuestionsFromFile.jsx:29-30 | Trimming an already trimmed string changes nothing. |
| Text.TrimDropLast | frontend/src/components/ImportQuestionsFromFile.jsx:18-22 | A trailing whitespace character makes no difference to `trim`. |
| Text.SplitThenJoin | frontend/src/components/ImportQuestionsFromFile.jsx:25 | Splitting on a character and joining with it gives back the input. |
| Text.JoinThenSplit | frontend/src/components/ImportQuestionsFromFile.jsx:25 | Joining pieces that lack the separator and splitting again gives back the pieces. |
| Text.SplitOnPieces | frontend/src/components/ImportQuestionsFromFile.jsx:25 | No piece of a split contains the separator. |
| Text.SplitOnCount | frontend/src/components/ImportQuestionsFromFile.jsx:18 | A split yields exactly one more piece than the separator has occurrences. |

## Left out

- Timers are not modelled as running callbacks. Each timer is recorded as the period or delay it was armed with, and each callback is a separate step. Interleavings of asynchronous steps are not modelled: a `disconnect` or `stop` that lands while a poll or `start` is awaiting the network, or a tick overlapping a chat poll.
- Outside effects are parameters, as listed above: the chat feed's replies, post outcomes, the clock and the random index. The feed client, the YouTube token and chat-id helpers, the HTTP routes, the database models and the other React components are not part of this model.
- `backend/services/youtubeClient.js` exports `getYouTubeClient`, `sendChatMessage` and `fetchNewMessages`, but not the `listChatMessages` function the poller imports. The poller's transport is therefore modelled as the `Fetch` parameter. As written, the imported name is `undefined`, so every `pollOnce` throws a `TypeError` inside its `try` and takes the 5000 ms retry: the shipped code only ever follows `Poller.Poll`'s `FetchFailed` branch, and the `Fetched` branch describes the transport the code evidently expects.
- The error-swallowing `safeCall` wrapper around handler calls is not modelled: handlers are opaque ids, and an invocation is a `Call` record.
- Replies with a missing `messages` list, and messages with no text, are not modelled. In the source these throw partway through a step.
- A `pollingIntervalMillis` that is `NaN` or not an integer is not modelled. The feed's suggestion is an `Option<int>`.
- Database failures in `countDocuments`, `findOne` and `findOneAndUpdate` are not modelled.
- Score.js trims user names on save. The score map is keyed by the display name as given, because that schema option is outside the engine.
- Trivia.Start: a rejected start announcement makes `start()` reject to its caller after the game is already running. The model returns the started game, and only the missing `Started` post marks the failure; there is no separate error value for the caller.
- Trivia.Tick: the hint is the `Hint` post without its text. The masking regular expression that builds it is not modelled.
- Trivia.PollChat: the credit post omits the answer delay in seconds, which is computed from the clock and the message's publish time.
- Trivia.Matches: `toLowerCase` is modelled for ASCII and Latin-1 capitals only. Other Unicode case mappings are not modelled.
- Poller.Poll: `lastMessageAt` is the clock reading `now` for the whole step. The source takes a fresh `Date` per new message.

=== FILE: chat.dfy ===
/** The chat-feed vocabulary shared by the connection poller and the trivia
    engine: messages, the batches the feed returns, and a failed fetch. */
module Chat {
  import opened Wrappers

  /** One live-chat message: its feed-unique id, the author's display name
      and the displayed text. */
  datatype ChatMessage = ChatMessage(id: string, author: string, text: string)

  /** One page of the feed: the messages, the cursor to resume from, and the
      feed's suggested delay before the next request (`None` when absent or
      not a number). */
  datatype Batch = Batch(
    messages: seq<ChatMessage>,
    nextPageToken: Option<string>,
    pollingIntervalMillis: Option<int>)

  /** What a request to the feed yields: a batch, or a thrown error. */
  datatype Fetch = Fetched(batch: Batch) | FetchFailed

  /** The ids of a sequence of messages. */
  function Ids(msgs: seq<ChatMessage>): set<string>
  {
    set i | 0 <= i < |msgs| :: msgs[i].id
  }

  /** No id occurs twice. */
  predicate DistinctIds(msgs: seq<ChatMessage>)
  {
    forall i, j :: 0 <= i < j < |msgs| ==> msgs[i].id != msgs[j].id
  }

  /** `a` is `b` with some elements left out, the rest kept in order. */
  predicate IsSubsequence<T(==)>(a: seq<T>, b: seq<T>)
    decreases |b|
  {
    || |a| == 0
    || (|b| > 0 && ((a[0] == b[0] && IsSubsequence(a[1..], b[1..])) || IsSubsequence(a, b[1..])))
  }

  lemma IdsAppend(a: seq<ChatMessage>, b: seq<ChatMessage>)
    ensures Ids(a + b) == Ids(a) + Ids(b)
  {
    var ab := a + b;
    forall x | x in Ids(ab)
      ensures x in Ids(a) + Ids(b)
    {
      var i :| 0 <= i < |ab| && ab[i].id == x;
      if i >= |a| {
        assert ab[i] == b[i - |a|];
      }
    }
    forall x | x in Ids(a)
      ensures x in Ids(ab)
    {
      var i :| 0 <= i < |a| && a[i].id == x;
      assert ab[i] == a[i];
    }
    forall x | x in Ids(b)
      ensures x in Ids(ab)
    {
      var i :| 0 <= i < |b| && b[i].id == x;
      assert ab[i + |a|] == b[i];
    }
  }

  lemma IdsCons(m: ChatMessage, s: seq<ChatMessage>)
    ensures Ids([m] + s) == {m.id} + Ids(s)
  {
    IdsAppend([m], s);
    assert Ids([m]) == {m.id} by {
      assert [m][0] == m;
    }
  }

  /** Two duplicate-free sequences with disjoint ids concatenate into a
      duplicate-free sequence. */
  lemma DistinctAppend(a: seq<ChatMessage>, b: seq<ChatMessage>)
    requires DistinctIds(a) && DistinctIds(b) && Ids(a) !! Ids(b)
    ensures DistinctIds(a + b)
  {
    var ab := a + b;
    forall i, j | 0 <= i < j < |ab|
      ensures ab[i].id != ab[j].id
    {
      if i < |a| && j >= |a| {
        assert ab[i].id in Ids(a);
        assert ab[j] == b[j - |a|];
        assert ab[j].id in Ids(b);
      } else if i >= |a| {
        assert ab[i] == b[i - |a|];
        assert ab[j] == b[j - |a|];
      }
    }
  }
}

=== FILE: poller.dfy ===
/** The chat-connection poller: one binding to a live-chat feed, a cursor
    into it, a set of message ids already delivered, and the subscribers
    every new message is handed to. Each entry point is a pure step from one
    connection record to the next. */
module Poller {
  import opened Wrappers
  import opened Chat

  /** Delay before the next poll when the feed suggests none. */
  const DefaultPollInterval: nat := 2000
  /** Delay before retrying after a failed poll. */
  const RetryDelay: nat := 5000

  /** A registered subscriber, identified by a handle. */
  type HandlerId = nat

  /** The poller's state. `nextPoll` is the delay after which the next
      `pollOnce` runs (`None` when nothing is scheduled); `lastMessageAt` is
      the clock reading at which the last new message was seen. */
  datatype Connection = Connection(
    connected: bool,
    liveChatId: Option<string>,
    connectedBy: Option<string>,
    pageToken: Option<string>,
    seen: set<string>,
    lastMessageAt: Option<int>,
    handlers: seq<HandlerId>,
    nextPoll: Option<nat>)

  /** What `getState` reports. */
  datatype Snapshot = Snapshot(
    connected: bool,
    liveChatId: Option<string>,
    connectedBy: Option<string>,
    lastMessageAt: Option<int>,
    handlerCount: nat)

  /** One handler invoked with one message. */
  datatype Call = Call(handler: HandlerId, msg: ChatMessage)

  /** The outcome of one poll: the new state, the messages found new (in
      batch order), and the handler invocations made for them (in order). */
  datatype PollResult = PollResult(conn: Connection, delivered: seq<ChatMessage>, calls: seq<Call>)

  /** The freshly constructed poller. */
  function Initial(): Connection
  {
    Connection(false, None, None, None, {}, None, [], None)
  }

  predicate DistinctHandlers(hs: seq<HandlerId>)
  {
    forall i, j :: 0 <= i < j < |hs| ==> hs[i] != hs[j]
  }

  /** The binding is present, with a non-empty chat id (the truthiness test
      of `pollOnce`). */
  predicate HasChat(c: Connection)
  {
    c.liveChatId.Some? && c.liveChatId.value != ""
  }

  /** The invariant every reachable state keeps: the handler set has no
      duplicates; a connected poller has a non-empty chat id and an owner;
      a disconnected one holds no cursor, no seen ids, no marker and no
      scheduled poll; a cursor is never the empty token. */
  predicate Valid(c: Connection)
  {
    && DistinctHandlers(c.handlers)
    && (c.connected <==> c.liveChatId.Some?)
    && (c.connected <==> c.connectedBy.Some?)
    && (c.liveChatId.Some? ==> c.liveChatId.value != "")
    && (!c.connected ==> c.pageToken.None? && c.seen == {} && c.lastMessageAt.None? && c.nextPoll.None?)
    && (c.pageToken.Some? ==> c.pageToken.value != "")
  }

  lemma InitialIsValid()
    ensures Valid(Initial())
  {
  }

  /** `handlers` with `h` taken out, the others kept in order. */
  function Remove(hs: seq<HandlerId>, h: HandlerId): (r: seq<HandlerId>)
    ensures forall x :: x in r <==> x in hs && x != h
    ensures IsSubsequence(r, hs)
  {
    if |hs| == 0 then []
    else if hs[0] == h then Remove(hs[1..], h)
    else [hs[0]] + Remove(hs[1..], h)
  }

  /** The tail of a duplicate-free sequence is duplicate-free and lacks the head. */
  lemma DistinctTail(hs: seq<HandlerId>)
    requires |hs| > 0 && DistinctHandlers(hs)
    ensures DistinctHandlers(hs[1..]) && hs[0] !in hs[1..]
  {
    var tail := hs[1..];
    forall i, j | 0 <= i < j < |tail|
      ensures tail[i] != tail[j]
    {
      assert tail[i] == hs[i + 1] && tail[j] == hs[j + 1];
    }
    forall k | 0 <= k < |tail|
      ensures tail[k] != hs[0]
    {
      assert tail[k] == hs[k + 1];
    }
  }

  /** Removing a handler keeps the others free of duplicates. */
  lemma {:induction false} RemoveKeepsDistinct(hs: seq<HandlerId>, h: HandlerId)
    ensures DistinctHandlers(hs) ==> DistinctHandlers(Remove(hs, h))
    decreases |hs|
  {
    if |hs| > 0 && DistinctHandlers(hs) {
      var tail := hs[1..];
      DistinctTail(hs);
      RemoveKeepsDistinct(tail, h);
      if hs[0] != h {
        var rest := Remove(tail, h);
        var r := [hs[0]] + rest;
        forall i, j | 0 <= i < j < |r|
          ensures r[i] != r[j]
        {
          assert r[j] == rest[j - 1];
          if i > 0 {
            assert r[i] == rest[i - 1];
          } else {
            assert r[j] in rest;
          }
        }
      }
    }
  }

  /** Removing an element that was just appended restores the sequence. */
  lemma {:induction false} RemoveAppended(hs: seq<HandlerId>, h: HandlerId)
    requires h !in hs
    ensures Remove(hs + [h], h) == hs
    decreases |hs|
  {
    if |hs| > 0 {
      assert (hs + [h])[1..] == hs[1..] + [h];
      RemoveAppended(hs[1..], h);
      assert hs == [hs[0]] + hs[1..];
    } else {
      assert [h][1..] == [];
    }
  }

  /** `onMessage(handler)`: add `h` to the handler set (a set keeps one
      copy, and a new member goes last in iteration order). Nothing else
      changes. */
  function OnMessage(c: Connection, h: HandlerId): (r: Connection)
    ensures forall x :: x in r.handlers <==> x in c.handlers || x == h
    ensures h in c.handlers ==> r == c
    ensures h !in c.handlers ==> r.handlers == c.handlers + [h]
    ensures r == c.(handlers := r.handlers)
    ensures Valid(c) ==> Valid(r)
  {
    if h in c.handlers then c else c.(handlers := c.handlers + [h])
  }

  /** The unsubscribe function `onMessage` returns: take `h` out again. */
  function Unsubscribe(c: Connection, h: HandlerId): (r: Connection)
    ensures forall x :: x in r.handlers <==> x in c.handlers && x != h
    ensures r == c.(handlers := r.handlers)
    ensures Valid(c) ==> Valid(r)
  {
    RemoveKeepsDistinct(c.handlers, h);
    c.(handlers := Remove(c.handlers, h))
  }

  /** Subscribing a new handler and calling the returned unsubscribe leaves
      the poller as it was. */
  lemma SubscribeThenUnsubscribe(c: Connection, h: HandlerId)
    requires h !in c.handlers
    ensures Unsubscribe(OnMessage(c, h), h) == c
  {
    RemoveAppended(c.handlers, h);
  }

  /** `getState()`: the poller's own binding, owner and last-message time,
      and the number of distinct subscribers. For a poller in a reachable
      state the report is consistent: a chat id and an owner exactly while
      connected, and no last-message time while disconnected. */
  function GetState(c: Connection): (r: Snapshot)
    ensures r.connected == c.connected && r.liveChatId == c.liveChatId
    ensures r.connectedBy == c.connectedBy && r.lastMessageAt == c.lastMessageAt
    ensures Valid(c) ==> r.handlerCount == |HandlerSet(c.handlers)|
    ensures Valid(c) ==> (r.connected <==> HasChat(c)) && (r.connected <==> r.connectedBy.Some?)
    ensures Valid(c) ==> (!r.connected ==> r.lastMessageAt.None?)
  {
    DistinctCard(c.handlers);
    Snapshot(c.connected, c.liveChatId, c.connectedBy, c.lastMessageAt, |c.handlers|)
  }

  /** The subscribers as a set. */
  function HandlerSet(hs: seq<HandlerId>): set<HandlerId>
  {
    set x | x in hs
  }

  /** A duplicate-free sequence has as many elements as its set. */
  lemma {:induction false} DistinctCard(hs: seq<HandlerId>)
    ensures DistinctHandlers(hs) ==> |HandlerSet(hs)| == |hs|
    decreases |hs|
  {
    if |hs| > 0 && DistinctHandlers(hs) {
      var rest := hs[1..];
      DistinctTail(hs);
      DistinctCard(rest);
      var all := HandlerSet(hs);
      var tailSet := HandlerSet(rest);
      forall x | x in all
        ensures x in tailSet + {hs[0]}
      {
        var k :| 0 <= k < |hs| && hs[k] == x;
        if k > 0 { assert rest[k - 1] == x; }
      }
      forall x | x in tailSet
        ensures x in all
      {
        var k :| 0 <= k < |rest| && rest[k] == x;
        assert hs[k + 1] == x;
      }
      assert all == tailSet + {hs[0]};
      assert hs[0] !in tailSet;
      assert |tailSet + {hs[0]}| == |tailSet| + 1;
      assert |tailSet| == |rest|;
    }
  }

  /** `disconnect()`: drop the binding, the cursor, the seen ids, the
      last-message marker and any scheduled poll; keep the subscribers. */
  function Disconnect(c: Connection): (r: Connection)
    ensures !r.connected && r.liveChatId.None? && r.connectedBy.None?
    ensures r.pageToken.None? && r.seen == {} && r.lastMessageAt.None? && r.nextPoll.None?
    ensures r.handlers == c.handlers
    ensures Valid(c) ==> Valid(r)
  {
    c.(connected := false, liveChatId := None, connectedBy := None, nextPoll := None,
       pageToken := None, seen := {}, lastMessageAt := None)
  }

  /** Disconnecting twice is disconnecting once. */
  lemma DisconnectIdempotent(c: Connection)
    ensures Disconnect(Disconnect(c)) == Disconnect(c)
  {
  }

  /** `connect(liveChatId, connectedBy)`, with the owner passed explicitly
      (the source defaults it to "web" when omitted): an empty chat id is an error and
      leaves the poller untouched; the chat already bound is kept as it is;
      any other chat replaces the binding with a kept one (no cursor, no
      seen ids, no marker) and asks for an immediate poll. */
  function Connect(c: Connection, liveChatId: string, connectedBy: string): (r: Result<Connection>)
    ensures r.Failure? <==> liveChatId == ""
    ensures r.Success? && c.connected && c.liveChatId == Some(liveChatId) ==> r.value == c
    ensures r.Success? && !(c.connected && c.liveChatId == Some(liveChatId)) ==>
      && r.value.connected
      && r.value.liveChatId == Some(liveChatId)
      && r.value.connectedBy == Some(connectedBy)
      && r.value.pageToken.None? && r.value.seen == {} && r.value.lastMessageAt.None?
      && r.value.nextPoll == Some(0)
      && r.value.handlers == c.handlers
    ensures r.Success? && Valid(c) ==> Valid(r.value)
  {
    if liveChatId == "" then Failure("liveChatId is required")
    else if c.connected && c.liveChatId == Some(liveChatId) then Success(c)
    else
      var d := Disconnect(c);
      Success(d.(connected := true, liveChatId := Some(liveChatId),
                 connectedBy := Some(connectedBy), nextPoll := Some(0)))
  }

  /** Connecting to the chat already bound reports the current state. */
  lemma ConnectSameReportsState(c: Connection, liveChatId: string, connectedBy: string)
    requires liveChatId != "" && c.connected && c.liveChatId == Some(liveChatId)
    ensures Connect(c, liveChatId, connectedBy).Success?
    ensures GetState(Connect(c, liveChatId, connectedBy).value) == GetState(c)
  {
  }

  /** The delay chosen after a successful poll: the feed's suggestion when it
      is a positive number, the default otherwise. */
  function NextInterval(suggested: Option<int>): (d: nat)
    ensures d > 0
    ensures suggested.Some? && suggested.value > 0 ==> d == suggested.value
    ensures !(suggested.Some? && suggested.value > 0) ==> d == DefaultPollInterval
  {
    if suggested.Some? && suggested.value > 0 then suggested.value else DefaultPollInterval
  }

  /** The cursor after a successful poll: the returned token when it is
      non-empty, the old cursor otherwise. */
  function AdvanceCursor(cursor: Option<string>, token: Option<string>): (r: Option<string>)
    ensures token.Some? && token.value != "" ==> r == token
    ensures !(token.Some? && token.value != "") ==> r == cursor
    ensures cursor.Some? ==> r.Some?
  {
    if token.Some? && token.value != "" then token else cursor
  }

  /** The first occurrence in the batch of an id not seen before. */
  predicate FirstNew(seen: set<string>, msgs: seq<ChatMessage>, i: int)
    requires 0 <= i < |msgs|
  {
    msgs[i].id !in seen && forall j :: 0 <= j < i ==> msgs[j].id != msgs[i].id
  }

  /** The result of the dedup loop: the grown seen-set and the new messages. */
  datatype Dedup = Dedup(seen: set<string>, kept: seq<ChatMessage>)

  /** The delivery loop's bookkeeping over one batch, in batch order: a
      message whose id is already seen is skipped, any other is recorded as
      seen and kept. */
  function DedupBatch(seen: set<string>, msgs: seq<ChatMessage>): (r: Dedup)
    ensures r.seen == seen + Ids(msgs)
    ensures Ids(r.kept) == Ids(msgs) - seen
    ensures |r.kept| <= |msgs|
    decreases |msgs|
  {
    if |msgs| == 0 then Dedup(seen, [])
    else
      var m := msgs[0];
      assert msgs == [m] + msgs[1..];
      IdsCons(m, msgs[1..]);
      if m.id in seen then DedupBatch(seen, msgs[1..])
      else
        var rest := DedupBatch(seen + {m.id}, msgs[1..]);
        IdsCons(m, rest.kept);
        Dedup(rest.seen, [m] + rest.kept)
  }

  /** Tail step of the dedup loop: the seen-set after looking at the head. */
  function SeenAfterHead(seen: set<string>, msgs: seq<ChatMessage>): set<string>
    requires |msgs| > 0
  {
    seen + {msgs[0].id}
  }

  /** An occurrence first-new in the tail (after the head was seen) is
      first-new in the whole batch, one position later. */
  lemma FirstNewFromTail(seen: set<string>, msgs: seq<ChatMessage>, i: nat)
    requires 0 < |msgs| && i < |msgs| - 1
    requires FirstNew(SeenAfterHead(seen, msgs), msgs[1..], i)
    ensures FirstNew(seen, msgs, i + 1)
  {
    var tail := msgs[1..];
    assert msgs[i + 1] == tail[i];
    forall j | 0 <= j < i + 1
      ensures msgs[j].id != msgs[i + 1].id
    {
      if j > 0 { assert msgs[j] == tail[j - 1]; }
    }
  }

  /** A first-new occurrence past the head is first-new in the tail. */
  lemma FirstNewInTail(seen: set<string>, msgs: seq<ChatMessage>, i: nat)
    requires 0 < i < |msgs|
    requires FirstNew(seen, msgs, i)
    ensures FirstNew(SeenAfterHead(seen, msgs), msgs[1..], i - 1)
  {
    var tail := msgs[1..];
    assert msgs[0].id != msgs[i].id;
    assert tail[i - 1] == msgs[i];
    forall j | 0 <= j < i - 1
      ensures tail[j].id != tail[i - 1].id
    {
      assert tail[j] == msgs[j + 1];
    }
  }

  /** `x` is, in the batch, the first occurrence of an id not seen before. */
  predicate IsFirstNew(seen: set<string>, msgs: seq<ChatMessage>, x: ChatMessage)
  {
    exists i :: 0 <= i < |msgs| && msgs[i] == x && FirstNew(seen, msgs, i)
  }

  /** Every message kept is the first occurrence of an id not seen before. */
  lemma {:induction false} DedupSound(seen: set<string>, msgs: seq<ChatMessage>)
    ensures forall x :: x in DedupBatch(seen, msgs).kept ==> IsFirstNew(seen, msgs, x)
    decreases |msgs|
  {
    if |msgs| > 0 {
      var m := msgs[0];
      var tail := msgs[1..];
      var kept := DedupBatch(seen, msgs).kept;
      var seen' := if m.id in seen then seen else SeenAfterHead(seen, msgs);
      DedupSound(seen', tail);
      var rest := DedupBatch(seen', tail).kept;
      assert kept == (if m.id in seen then rest else [m] + rest);
      forall x | x in kept
        ensures IsFirstNew(seen, msgs, x)
      {
        if m.id !in seen && x == m {
          assert msgs[0] == x && FirstNew(seen, msgs, 0);
        } else {
          assert x in rest;
          assert IsFirstNew(seen', tail, x);
          var i :| 0 <= i < |tail| && tail[i] == x && FirstNew(seen', tail, i);
          if m.id in seen {
            assert msgs[i + 1] == tail[i];
            forall j | 0 <= j < i + 1
              ensures msgs[j].id != msgs[i + 1].id
            {
              if j > 0 { assert msgs[j] == tail[j - 1]; }
            }
            assert FirstNew(seen, msgs, i + 1);
          } else {
            FirstNewFromTail(seen, msgs, i);
          }
          assert msgs[i + 1] == x;
        }
      }
    }
  }

  /** Every first occurrence of an id not seen before is kept. */
  lemma {:induction false} DedupComplete(seen: set<string>, msgs: seq<ChatMessage>)
    ensures var kept := DedupBatch(seen, msgs).kept;
      forall i :: 0 <= i < |msgs| && FirstNew(seen, msgs, i) ==> msgs[i] in kept
    decreases |msgs|
  {
    if |msgs| > 0 {
      var m := msgs[0];
      var tail := msgs[1..];
      var seen' := if m.id in seen then seen else SeenAfterHead(seen, msgs);
      DedupComplete(seen', tail);
      var rest := DedupBatch(seen', tail).kept;
      var kept := DedupBatch(seen, msgs).kept;
      assert kept == (if m.id in seen then rest else [m] + rest);
      forall i | 0 <= i < |msgs| && FirstNew(seen, msgs, i)
        ensures msgs[i] in kept
      {
        if i > 0 {
          FirstNewInTail(seen, msgs, i);
          assert FirstNew(seen', tail, i - 1);
          assert msgs[i] == tail[i - 1];
        }
      }
    }
  }

  /** Positions in strictly increasing order. */
  predicate Increasing(idx: seq<nat>)
  {
    forall p, q :: 0 <= p < q < |idx| ==> idx[p] < idx[q]
  }

  /** `idx` lists, in increasing order, exactly the positions of the batch
      that hold the first occurrence of an id not seen before, and `kept`
      holds the messages at those positions. */
  predicate KeptAtFirstNew(seen: set<string>, msgs: seq<ChatMessage>, kept: seq<ChatMessage>, idx: seq<nat>)
  {
    && |idx| == |kept| && Increasing(idx)
    && (forall k :: 0 <= k < |idx| ==> idx[k] < |msgs| && kept[k] == msgs[idx[k]] && FirstNew(seen, msgs, idx[k]))
    && (forall i :: 0 <= i < |msgs| && FirstNew(seen, msgs, i) ==> i in idx)
  }

  /** Every position moved one place later. */
  function Shift(idx: seq<nat>): (r: seq<nat>)
    ensures |r| == |idx| && forall k :: 0 <= k < |idx| ==> r[k] == idx[k] + 1
  {
    seq(|idx|, k requires 0 <= k < |idx| => idx[k] + 1)
  }

  /** A head whose id is already seen holds no first-new position: the
      tail's positions, one place later, describe the same kept list. */
  lemma PositionsSkipHead(seen: set<string>, msgs: seq<ChatMessage>, rest: seq<ChatMessage>, idx: seq<nat>)
    requires |msgs| > 0 && msgs[0].id in seen
    requires KeptAtFirstNew(seen, msgs[1..], rest, idx)
    ensures KeptAtFirstNew(seen, msgs, rest, Shift(idx))
  {
    var tail := msgs[1..];
    var sh := Shift(idx);
    forall k | 0 <= k < |sh|
      ensures sh[k] < |msgs| && rest[k] == msgs[sh[k]] && FirstNew(seen, msgs, sh[k])
    {
      var i := idx[k];
      assert msgs[i + 1] == tail[i];
      forall j | 0 <= j < i + 1
        ensures msgs[j].id != msgs[i + 1].id
      {
        if j > 0 { assert msgs[j] == tail[j - 1]; }
      }
    }
    forall i | 0 <= i < |msgs| && FirstNew(seen, msgs, i)
      ensures i in sh
    {
      assert i > 0;
      assert tail[i - 1] == msgs[i];
      forall j | 0 <= j < i - 1
        ensures tail[j].id != tail[i - 1].id
      {
        assert tail[j] == msgs[j + 1];
      }
      assert FirstNew(seen, tail, i - 1);
      var k :| 0 <= k < |idx| && idx[k] == i - 1;
      assert sh[k] == i;
    }
  }

  /** A head with an unseen id is a first-new position, ahead of the tail's
      positions taken one place later. */
  lemma PositionsKeepHead(seen: set<string>, msgs: seq<ChatMessage>, rest: seq<ChatMessage>, idx: seq<nat>)
    requires |msgs| > 0 && msgs[0].id !in seen
    requires KeptAtFirstNew(SeenAfterHead(seen, msgs), msgs[1..], rest, idx)
    ensures KeptAtFirstNew(seen, msgs, [msgs[0]] + rest, [0] + Shift(idx))
  {
    var kept := [msgs[0]] + rest;
    var all := [0] + Shift(idx);
    forall k | 0 <= k < |all|
      ensures all[k] < |msgs| && kept[k] == msgs[all[k]] && FirstNew(seen, msgs, all[k])
    {
      if k > 0 {
        assert all[k] == idx[k - 1] + 1 && kept[k] == rest[k - 1];
        KeepHeadAt(seen, msgs, rest, idx, k - 1);
      }
    }
    KeepHeadComplete(seen, msgs, rest, idx);
  }

  /** Every first-new position of the batch is the head or a tail position
      moved one place later. */
  lemma KeepHeadComplete(seen: set<string>, msgs: seq<ChatMessage>, rest: seq<ChatMessage>, idx: seq<nat>)
    requires |msgs| > 0 && msgs[0].id !in seen
    requires KeptAtFirstNew(SeenAfterHead(seen, msgs), msgs[1..], rest, idx)
    ensures forall i :: 0 <= i < |msgs| && FirstNew(seen, msgs, i) ==> i in [0] + Shift(idx)
  {
    var all := [0] + Shift(idx);
    forall i | 0 <= i < |msgs| && FirstNew(seen, msgs, i)
      ensures i in all
    {
      if i > 0 {
        FirstNewInTail(seen, msgs, i);
        var k :| 0 <= k < |idx| && idx[k] == i - 1;
        assert all[k + 1] == i;
      }
    }
  }

  /** One tail position, moved one place later, is first-new in the batch. */
  lemma KeepHeadAt(seen: set<string>, msgs: seq<ChatMessage>, rest: seq<ChatMessage>, idx: seq<nat>, k: nat)
    requires |msgs| > 0 && k < |idx|
    requires KeptAtFirstNew(SeenAfterHead(seen, msgs), msgs[1..], rest, idx)
    ensures idx[k] + 1 < |msgs| && rest[k] == msgs[idx[k] + 1] && FirstNew(seen, msgs, idx[k] + 1)
  {
    var i := idx[k];
    assert i < |msgs| - 1 && rest[k] == msgs[1..][i] && FirstNew(SeenAfterHead(seen, msgs), msgs[1..], i);
    FirstNewFromTail(seen, msgs, i);
  }

  /** The kept messages sit at the first-new positions, in increasing order. */
  lemma {:induction false} DedupPositions(seen: set<string>, msgs: seq<ChatMessage>)
    ensures exists idx :: KeptAtFirstNew(seen, msgs, DedupBatch(seen, msgs).kept, idx)
    decreases |msgs|
  {
    if |msgs| == 0 {
      assert DedupBatch(seen, msgs).kept == [];
      assert KeptAtFirstNew(seen, msgs, [], []);
    } else {
      var m := msgs[0];
      var seen' := if m.id in seen then seen else SeenAfterHead(seen, msgs);
      DedupPositions(seen', msgs[1..]);
      var rest := DedupBatch(seen', msgs[1..]).kept;
      var idx :| KeptAtFirstNew(seen', msgs[1..], rest, idx);
      if m.id in seen {
        PositionsSkipHead(seen, msgs, rest, idx);
        assert KeptAtFirstNew(seen, msgs, DedupBatch(seen, msgs).kept, Shift(idx));
      } else {
        PositionsKeepHead(seen, msgs, rest, idx);
        assert KeptAtFirstNew(seen, msgs, DedupBatch(seen, msgs).kept, [0] + Shift(idx));
      }
    }
  }

  /** No id is kept twice, and the kept messages are the first occurrences
      of unseen ids taken at their positions in increasing order. */
  lemma {:induction false} DedupDistinctInOrder(seen: set<string>, msgs: seq<ChatMessage>)
    ensures DistinctIds(DedupBatch(seen, msgs).kept)
    ensures IsSubsequence(DedupBatch(seen, msgs).kept, msgs)
    ensures exists idx :: KeptAtFirstNew(seen, msgs, DedupBatch(seen, msgs).kept, idx)
    decreases |msgs|
  {
    DedupPositions(seen, msgs);
    if |msgs| > 0 {
      var m := msgs[0];
      var tail := msgs[1..];
      var kept := DedupBatch(seen, msgs).kept;
      if m.id in seen {
        DedupDistinctInOrder(seen, tail);
      } else {
        var seen' := SeenAfterHead(seen, msgs);
        DedupDistinctInOrder(seen', tail);
        var rest := DedupBatch(seen', tail).kept;
        assert kept == [m] + rest;
        assert m.id !in Ids(rest);
        assert DistinctIds([m]);
        IdsCons(m, []);
        DistinctAppend([m], rest);
        assert kept[0] == msgs[0] && kept[1..] == rest;
      }
    }
  }

  /** Past a shared least member, a member of one list's rest is in the other's. */
  lemma TailMember(a: seq<nat>, b: seq<nat>, x: nat)
    requires Increasing(a) && |a| > 0 && |b| > 0 && a[0] == b[0]
    requires forall y :: y in a <==> y in b
    requires x in a[1..]
    ensures x in b[1..]
  {
    var p :| 1 <= p < |a| && a[p] == x;
    assert a[0] < a[p];
    assert x in a;
    var q :| 0 <= q < |b| && b[q] == x;
    assert b[1..][q - 1] == x;
  }

  /** Two increasing position lists with the same members are equal. */
  lemma {:induction false} IncreasingSameMembers(a: seq<nat>, b: seq<nat>)
    requires Increasing(a) && Increasing(b)
    requires forall x :: x in a <==> x in b
    ensures a == b
    decreases |a|
  {
    assert (|a| > 0 ==> a[0] in b) && (|b| > 0 ==> b[0] in a);
    if |a| > 0 {
      assert a[0] in b && b[0] in a;
      assert a[0] == b[0];
      forall x
        ensures x in a[1..] <==> x in b[1..]
      {
        if x in a[1..] { TailMember(a, b, x); }
        if x in b[1..] { TailMember(b, a, x); }
      }
      IncreasingSameMembers(a[1..], b[1..]);
      assert a == [a[0]] + a[1..] && b == [b[0]] + b[1..];
    }
  }

  /** The positional description pins the kept list: only one list of
      messages can be the first occurrences of unseen ids in increasing
      position order, and it is the one the dedup loop builds. */
  lemma KeptAtFirstNewUnique(seen: set<string>, msgs: seq<ChatMessage>, alt: seq<ChatMessage>, idx: seq<nat>)
    requires KeptAtFirstNew(seen, msgs, alt, idx)
    ensures alt == DedupBatch(seen, msgs).kept
  {
    var kept := DedupBatch(seen, msgs).kept;
    DedupPositions(seen, msgs);
    var idx0 :| KeptAtFirstNew(seen, msgs, kept, idx0);
    SamePositions(seen, msgs, alt, idx, kept, idx0);
    assert |alt| == |kept|;
    forall k | 0 <= k < |alt|
      ensures alt[k] == kept[k]
    {
      assert alt[k] == msgs[idx[k]] && kept[k] == msgs[idx0[k]];
    }
  }

  /** Two positional descriptions of one batch use the same positions. */
  lemma SamePositions(seen: set<string>, msgs: seq<ChatMessage>,
                      a: seq<ChatMessage>, ia: seq<nat>, b: seq<ChatMessage>, ib: seq<nat>)
    requires KeptAtFirstNew(seen, msgs, a, ia) && KeptAtFirstNew(seen, msgs, b, ib)
    ensures ia == ib
  {
    forall x
      ensures x in ia <==> x in ib
    {
      if x in ia {
        var k :| 0 <= k < |ia| && ia[k] == x;
        assert FirstNew(seen, msgs, x);
      }
      if x in ib {
        var k :| 0 <= k < |ib| && ib[k] == x;
        assert FirstNew(seen, msgs, x);
      }
    }
    IncreasingSameMembers(ia, ib);
  }


  /** Every new message goes to every subscriber: for each message in
      order, each handler in registration order. */
  function FanOut(handlers: seq<HandlerId>, msgs: seq<ChatMessage>): (r: seq<Call>)
    ensures |r| == |msgs| * |handlers|
    decreases |msgs|
  {
    if |msgs| == 0 then []
    else
      var row := seq(|handlers|, j requires 0 <= j < |handlers| => Call(handlers[j], msgs[0]));
      row + FanOut(handlers, msgs[1..])
  }

  /** The invocation at position `i * |handlers| + j` hands message `i` to
      handler `j`. */
  lemma {:induction false} FanOutAt(handlers: seq<HandlerId>, msgs: seq<ChatMessage>, i: nat, j: nat)
    requires i < |msgs| && j < |handlers|
    ensures i * |handlers| + j < |FanOut(handlers, msgs)|
    ensures FanOut(handlers, msgs)[i * |handlers| + j] == Call(handlers[j], msgs[i])
    decreases i
  {
    var h := |handlers|;
    var row := seq(h, k requires 0 <= k < h => Call(handlers[k], msgs[0]));
    var rest := FanOut(handlers, msgs[1..]);
    assert FanOut(handlers, msgs) == row + rest;
    if i > 0 {
      FanOutAt(handlers, msgs[1..], i - 1, j);
      MulPred(i, h);
      assert msgs[1..][i - 1] == msgs[i];
    }
  }

  /** One row less: `i * h == h + (i - 1) * h`. */
  lemma MulPred(i: int, h: int)
    ensures i * h == h + (i - 1) * h
  {
  }

  /** `pollOnce()` with `fetch` standing for the feed's reply and `now` for
      the clock. A poller without a binding does nothing. A failed request
      changes only the schedule, to the retry delay. A batch moves the
      cursor to the returned token when that is non-empty and keeps it
      otherwise, records every id as seen, delivers the new messages to
      every handler, and schedules the next poll. */
  function Poll(c: Connection, fetch: Fetch, now: int): (r: PollResult)
    ensures !(c.connected && HasChat(c)) ==> r == PollResult(c, [], [])
    ensures c.connected && HasChat(c) && fetch.FetchFailed? ==>
      r == PollResult(c.(nextPoll := Some(RetryDelay)), [], [])
    ensures c.connected && HasChat(c) && fetch.Fetched? ==>
      && (var t := fetch.batch.nextPageToken;
          r.conn.pageToken == if t.Some? && t.value != "" then t else c.pageToken)
      && r.conn.seen == c.seen + Ids(fetch.batch.messages)
      && r.delivered == DedupBatch(c.seen, fetch.batch.messages).kept
      && Ids(r.delivered) == Ids(fetch.batch.messages) - c.seen
      && r.calls == FanOut(c.handlers, r.delivered)
      && r.conn.nextPoll == Some(NextInterval(fetch.batch.pollingIntervalMillis))
      && r.conn.lastMessageAt == (if |r.delivered| > 0 then Some(now) else c.lastMessageAt)
      && r.conn == c.(pageToken := r.conn.pageToken, seen := r.conn.seen,
                      lastMessageAt := r.conn.lastMessageAt, nextPoll := r.conn.nextPoll)
    ensures Valid(c) ==> Valid(r.conn)
  {
    if !c.connected || !HasChat(c) then PollResult(c, [], [])
    else match fetch
      case FetchFailed => PollResult(c.(nextPoll := Some(RetryDelay)), [], [])
      case Fetched(b) =>
        var d := DedupBatch(c.seen, b.messages);
        var conn := c.(
          pageToken := AdvanceCursor(c.pageToken, b.nextPageToken),
          seen := d.seen,
          lastMessageAt := if |d.kept| > 0 then Some(now) else c.lastMessageAt,
          nextPoll := Some(NextInterval(b.pollingIntervalMillis)));
        PollResult(conn, d.kept, FanOut(c.handlers, d.kept))
  }

  /** A poll replaces the cursor only with a non-empty token the feed
      returned, so it never moves it back to "no cursor"; and an active poll
      always adopts such a token. */
  lemma CursorNeverRegresses(c: Connection, fetch: Fetch, now: int)
    ensures var p := Poll(c, fetch, now).conn.pageToken;
      && (c.pageToken.Some? ==> p.Some?)
      && (p != c.pageToken ==> fetch.Fetched? && p == fetch.batch.nextPageToken && p.value != "")
      && (c.connected && HasChat(c) && fetch.Fetched?
          && fetch.batch.nextPageToken.Some? && fetch.batch.nextPageToken.value != ""
          ==> p == fetch.batch.nextPageToken)
  {
  }

  /** Polls in sequence, each with its own reply. */
  function PollAll(c: Connection, fetches: seq<Fetch>, now: int): (r: PollResult)
    decreases |fetches|
  {
    if |fetches| == 0 then PollResult(c, [], [])
    else
      var first := Poll(c, fetches[0], now);
      var rest := PollAll(first.conn, fetches[1..], now);
      PollResult(rest.conn, first.delivered + rest.delivered, first.calls + rest.calls)
  }

  /** Within one binding, no message id is delivered twice, however many
      polls run and whatever duplicates the feed returns; nothing already
      seen is delivered; everything delivered ends up seen. */
  lemma {:induction false} DeliveredAtMostOnce(c: Connection, fetches: seq<Fetch>, now: int)
    ensures var r := PollAll(c, fetches, now);
      && DistinctIds(r.delivered)
      && Ids(r.delivered) !! c.seen
      && c.seen + Ids(r.delivered) <= r.conn.seen
      && r.conn.liveChatId == c.liveChatId
    decreases |fetches|
  {
    if |fetches| > 0 {
      var first := Poll(c, fetches[0], now);
      DedupDistinctInOrder(c.seen, if fetches[0].Fetched? then fetches[0].batch.messages else []);
      DeliveredAtMostOnce(first.conn, fetches[1..], now);
      var rest := PollAll(first.conn, fetches[1..], now);
      assert c.seen + Ids(first.delivered) <= first.conn.seen;
      DistinctAppend(first.delivered, rest.delivered);
      IdsAppend(first.delivered, rest.delivered);
    }
  }

  /** Binding to a different chat forgets the old seen ids: the first poll
      of the new binding delivers every distinct id of its batch, including
      ids the old binding had already seen. */
  lemma RebindForgetsSeen(c: Connection, liveChatId: string, connectedBy: string, b: Batch, now: int)
    requires liveChatId != "" && !(c.connected && c.liveChatId == Some(liveChatId))
    ensures Connect(c, liveChatId, connectedBy).Success?
    ensures Ids(Poll(Connect(c, liveChatId, connectedBy).value, Fetched(b), now).delivered) == Ids(b.messages)
  {
  }
}

=== FILE: question_import.dfy ===
/** The question-file parser of the import form: one `Question|Answer`
    pair per line, blank lines and `#` comments skipped. */
module QuestionImport {
  import opened Wrappers
  import opened Text

  /** One parsed question, ready to upload. */
  datatype Entry = Entry(questionText: string, answerText: string)

  /** A piece without its one trailing carriage return, if any. */
  function DropCR(p: string): string
  {
    if |p| > 0 && p[|p| - 1] == '\r' then p[..|p| - 1] else p
  }

  /** `text.split(/\r?\n/)`: the pieces between line feeds, each but the
      last without the carriage return that preceded its line feed. */
  function Lines(text: string): (lines: seq<string>)
    ensures |lines| >= 1
  {
    var parts := SplitOn(text, '\n');
    seq(|parts|, i requires 0 <= i < |parts| => if i < |parts| - 1 then DropCR(parts[i]) else parts[i])
  }

  /** There is one line per piece between line feeds, so one more than
      there are line feeds, and the last piece is kept whole. */
  lemma LinesCount(text: string)
    ensures var lines := Lines(text); var parts := SplitOn(text, '\n');
      && |lines| == |parts| == multiset(text)['\n'] + 1
      && lines[|lines| - 1] == parts[|parts| - 1]
  {
    SplitOnCount(text, '\n');
  }

  /** No line holds a line feed. */
  lemma LinesLackLineFeed(text: string)
    ensures forall i :: 0 <= i < |Lines(text)| ==> '\n' !in Lines(text)[i]
  {
    SplitOnPieces(text, '\n');
    var lines := Lines(text);
    var parts := SplitOn(text, '\n');
    forall i | 0 <= i < |lines|
      ensures '\n' !in lines[i]
    {
      DropCRShape(parts[i], '\n');
    }
  }

  /** A piece that ends in a carriage return. */
  predicate EndsInCR(p: string)
  {
    |p| > 0 && p[|p| - 1] == '\r'
  }

  /** Each piece before a line feed is its line followed by the carriage
      return the separator consumed, when the piece ends in one, and is
      its line unchanged otherwise. */
  lemma LinesAreTrimmedPieces(text: string)
    ensures var lines := Lines(text); var parts := SplitOn(text, '\n');
      forall i :: 0 <= i < |lines| - 1 ==> parts[i] == lines[i] || parts[i] == lines[i] + ['\r']
    ensures var lines := Lines(text); var parts := SplitOn(text, '\n');
      forall i :: 0 <= i < |lines| - 1 ==>
        && (EndsInCR(parts[i]) ==> parts[i] == lines[i] + ['\r'])
        && (!EndsInCR(parts[i]) ==> lines[i] == parts[i])
  {
    var lines := Lines(text);
    var parts := SplitOn(text, '\n');
    forall i | 0 <= i < |lines| - 1
      ensures parts[i] == lines[i] || parts[i] == lines[i] + ['\r']
      ensures EndsInCR(parts[i]) ==> parts[i] == lines[i] + ['\r']
      ensures !EndsInCR(parts[i]) ==> lines[i] == parts[i]
    {
      DropCRShape(parts[i], '\n');
    }
  }

  /** Dropping the carriage return shortens the piece by it or not at all. */
  lemma DropCRShape(p: string, c: char)
    ensures p == DropCR(p) || p == DropCR(p) + ['\r']
    ensures c !in p ==> c !in DropCR(p)
  {
    if |p| > 0 && p[|p| - 1] == '\r' {
      assert p == p[..|p| - 1] + ['\r'];
    }
  }

  /** The parse of one line after trimming: nothing for an empty line or a
      comment; otherwise the first two `|`-separated fields, when both are
      non-empty, each trimmed. */
  function ParseTrimmed(t: string): Option<Entry>
  {
    if |t| == 0 || t[0] == '#' then None
    else
      var fields := SplitOn(t, '|');
      if |fields| < 2 || fields[0] == "" || fields[1] == "" then None
      else Some(Entry(Trim(fields[0]), Trim(fields[1])))
  }

  /** The loop body of `parseText` for one line. A blank line, a comment, or
      a line without a `|` gives nothing. An entry's texts are trimmed and
      free of `|`, and its question begins with the line's first
      non-space character, so it is never empty. */
  function ParseLine(line: string): (r: Option<Entry>)
    ensures |Trim(line)| == 0 ==> r.None?
    ensures |Trim(line)| > 0 && Trim(line)[0] == '#' ==> r.None?
    ensures '|' !in line ==> r.None?
    ensures r.Some? ==>
      && |r.value.questionText| > 0
      && r.value.questionText[0] == Trim(line)[0]
      && IsTrimmed(r.value.questionText) && IsTrimmed(r.value.answerText)
      && '|' !in r.value.questionText && '|' !in r.value.answerText
  {
    EntryShape(Trim(line));
    NoBarNoEntry(line);
    ParseTrimmed(Trim(line))
  }

  /** A line without `|` yields nothing. */
  lemma NoBarNoEntry(line: string)
    ensures '|' !in line ==> ParseTrimmed(Trim(line)).None?
  {
    var t := Trim(line);
    if '|' !in line {
      assert '|' !in t by {
        forall k | 0 <= k < |t|
          ensures t[k] != '|'
        {
          assert t[k] == line[TrimOffset(line) + k];
        }
      }
      SplitOnNone(t, '|');
    }
  }

  /** The fields an entry is built from begin with the trimmed line's first
      character and contain no `|`. */
  lemma EntryShape(t: string)
    requires IsTrimmed(t)
    ensures var r := ParseTrimmed(t);
      r.Some? ==>
        && |r.value.questionText| > 0 && r.value.questionText[0] == t[0]
        && '|' !in r.value.questionText && '|' !in r.value.answerText
  {
    var r := ParseTrimmed(t);
    if r.Some? {
      var fields := SplitOn(t, '|');
      SplitOnPieces(t, '|');
      var i := IndexOf(t, '|');
      assert fields == [t[..i]] + SplitOn(t[i + 1..], '|');
      assert fields[0][0] == t[0];
      TrimKeepsFirst(fields[0]);
      TrimLacks(fields[0], '|');
      TrimLacks(fields[1], '|');
    }
  }

  /** The first field is everything before the first `|`, the second
      everything between it and the next `|` (or the end); the result
      depends on these two fields only. */
  lemma FieldsDecide(q: string, a: string, rest: string)
    requires '|' !in q && '|' !in a
    requires rest == [] || rest[0] == '|'
    ensures ParseTrimmed(q + ['|'] + a + rest) ==
      if q == [] || q[0] == '#' || a == [] then None else Some(Entry(Trim(q), Trim(a)))
  {
    var t := q + ['|'] + a + rest;
    assert t == q + ['|'] + (a + rest);
    SplitOnFirst(q, a + rest, '|');
    if rest == [] {
      assert a + rest == a;
      SplitOnNone(a, '|');
    } else {
      assert a + rest == a + ['|'] + rest[1..];
      SplitOnFirst(a, rest[1..], '|');
    }
    if q == [] {
      assert t[0] == '|';
    } else {
      assert t[0] == q[0];
    }
  }

  /** Fields after the second are ignored. */
  lemma ExtraFieldsIgnored(q: string, a: string, extra: string)
    requires '|' !in q && '|' !in a
    ensures ParseTrimmed(q + ['|'] + a + ['|'] + extra) == ParseTrimmed(q + ['|'] + a)
  {
    FieldsDecide(q, a, ['|'] + extra);
    assert q + ['|'] + a + ['|'] + extra == q + ['|'] + a + (['|'] + extra);
    FieldsDecide(q, a, []);
    assert q + ['|'] + a + [] == q + ['|'] + a;
  }

  /** An entry the parser can produce: a non-empty question that does not
      start a comment, both texts trimmed and free of `|`. */
  predicate WellFormed(e: Entry)
  {
    && |e.questionText| > 0 && e.questionText[0] != '#'
    && IsTrimmed(e.questionText) && IsTrimmed(e.answerText)
    && '|' !in e.questionText && '|' !in e.answerText
  }

  /** The line format the parser reads: `question|answer`. */
  function Format(e: Entry): string
  {
    e.questionText + ['|'] + e.answerText
  }

  /** Every entry a line yields is well-formed. */
  lemma ParsedWellFormed(line: string)
    ensures ParseLine(line).Some? ==> WellFormed(ParseLine(line).value)
  {
  }

  /** A well-formed entry with a non-empty answer, written as a line, parses
      back to itself. */
  lemma FormatThenParse(e: Entry)
    requires WellFormed(e) && |e.answerText| > 0
    ensures ParseLine(Format(e)) == Some(e)
  {
    var q, a := e.questionText, e.answerText;
    var line := Format(e);
    assert line == q + ['|'] + a + [];
    FieldsDecide(q, a, []);
    assert IsTrimmed(line) by {
      assert line[0] == q[0];
      assert line[|line| - 1] == a[|a| - 1];
    }
    TrimOfTrimmed(line);
    TrimOfTrimmed(q);
    TrimOfTrimmed(a);
  }

  /** A whitespace-only second field passes the emptiness check and yields
      an empty answer. */
  lemma BlankAnswerGivesEmpty(q: string, a: string, rest: string)
    requires |q| > 0 && q[0] != '#' && IsTrimmed(q) && '|' !in q
    requires |a| > 0 && '|' !in a && forall k :: 0 <= k < |a| ==> IsSpace(a[k])
    requires rest == [] || rest[0] == '|'
    requires IsTrimmed(q + ['|'] + a + rest)
    ensures ParseLine(q + ['|'] + a + rest) == Some(Entry(q, ""))
  {
    TrimOfTrimmed(q + ['|'] + a + rest);
    FieldsDecide(q, a, rest);
    TrimOfTrimmed(q);
    TrimAllSpace(a);
  }

  /** `Q|   |x` gives question `Q` and an empty answer. */
  lemma BlankAnswerAccepted()
    ensures ParseLine("Q|   |x") == Some(Entry("Q", ""))
  {
    var q, a, rest := "Q", "   ", "|x";
    assert "Q|   |x" == q + ['|'] + a + rest;
    assert IsSpace(a[0]) && IsSpace(a[1]) && IsSpace(a[2]);
    BlankAnswerGivesEmpty(q, a, rest);
  }

  /** Dropping the carriage return never changes a line's parse, so the
      optional `\r` in the line separator makes no difference to the
      result. */
  lemma DropCRKeepsParse(p: string)
    ensures ParseLine(DropCR(p)) == ParseLine(p)
  {
    if |p| > 0 && p[|p| - 1] == '\r' {
      TrimDropLast(p);
    }
  }

  /** The parse of each line. */
  function ParseAll(lines: seq<string>): (rs: seq<Option<Entry>>)
    ensures |rs| == |lines|
  {
    seq(|lines|, i requires 0 <= i < |lines| => ParseLine(lines[i]))
  }

  /** The entries among per-line results, in order. */
  function Collect(rs: seq<Option<Entry>>): (r: seq<Entry>)
    ensures |r| <= |rs|
    decreases |rs|
  {
    if |rs| == 0 then []
    else
      var init := Collect(rs[..|rs| - 1]);
      match rs[|rs| - 1]
      case None => init
      case Some(e) => init + [e]
  }

  /** The positions of the results that hold an entry, ascending. */
  function Accepted(rs: seq<Option<Entry>>): seq<nat>
    decreases |rs|
  {
    if |rs| == 0 then []
    else
      var init := Accepted(rs[..|rs| - 1]);
      if rs[|rs| - 1].Some? then init + [|rs| - 1] else init
  }

  /** Accepted positions are positions of `rs`. */
  lemma {:induction false} AcceptedBelow(rs: seq<Option<Entry>>)
    ensures forall k :: 0 <= k < |Accepted(rs)| ==> Accepted(rs)[k] < |rs|
    decreases |rs|
  {
    if |rs| > 0 {
      AcceptedBelow(rs[..|rs| - 1]);
    }
  }

  /** Accepted positions ascend. */
  lemma {:induction false} AcceptedAscending(rs: seq<Option<Entry>>)
    ensures forall k, l :: 0 <= k < l < |Accepted(rs)| ==> Accepted(rs)[k] < Accepted(rs)[l]
    decreases |rs|
  {
    if |rs| > 0 {
      AcceptedAscending(rs[..|rs| - 1]);
      AcceptedBelow(rs[..|rs| - 1]);
    }
  }

  /** There are as many accepted positions as collected entries. */
  lemma {:induction false} AcceptedCount(rs: seq<Option<Entry>>)
    ensures |Accepted(rs)| == |Collect(rs)|
    decreases |rs|
  {
    if |rs| > 0 {
      AcceptedCount(rs[..|rs| - 1]);
    }
  }

  /** Collected entry `k` is the result at accepted position `k`. */
  lemma {:induction false} CollectAtAccepted(rs: seq<Option<Entry>>)
    ensures |Accepted(rs)| == |Collect(rs)|
    ensures forall k :: 0 <= k < |Accepted(rs)| ==>
      Accepted(rs)[k] < |rs| && rs[Accepted(rs)[k]] == Some(Collect(rs)[k])
    decreases |rs|
  {
    AcceptedCount(rs);
    AcceptedBelow(rs);
    if |rs| > 0 {
      var n := |rs| - 1;
      var init := rs[..n];
      CollectAtAccepted(init);
      AcceptedBelow(init);
      var idx, r := Accepted(rs), Collect(rs);
      var idx0, r0 := Accepted(init), Collect(init);
      forall k | 0 <= k < |idx|
        ensures rs[idx[k]] == Some(r[k])
      {
        if k < |idx0| {
          assert idx[k] == idx0[k] && r[k] == r0[k];
          assert init[idx0[k]] == rs[idx0[k]];
        } else {
          assert idx[k] == n;
        }
      }
    }
  }

  /** A position is accepted exactly when its result holds an entry. */
  lemma {:induction false} AcceptedExactly(rs: seq<Option<Entry>>)
    ensures forall i :: 0 <= i < |rs| ==> (rs[i].Some? <==> i in Accepted(rs))
    decreases |rs|
  {
    if |rs| > 0 {
      var init := rs[..|rs| - 1];
      AcceptedExactly(init);
      AcceptedBelow(init);
      assert forall i :: 0 <= i < |init| ==> init[i] == rs[i];
    }
  }

  /** Collected entry `k` is the result at accepted position `k`; accepted
      positions ascend; a position is accepted exactly when its result holds
      an entry. */
  lemma CollectFollowsResults(rs: seq<Option<Entry>>)
    ensures var r := Collect(rs); var idx := Accepted(rs);
      && |idx| == |r|
      && (forall k :: 0 <= k < |idx| ==> idx[k] < |rs| && rs[idx[k]] == Some(r[k]))
      && (forall k, l :: 0 <= k < l < |idx| ==> idx[k] < idx[l])
      && (forall i :: 0 <= i < |rs| ==> (rs[i].Some? <==> i in idx))
  {
    CollectAtAccepted(rs);
    AcceptedAscending(rs);
    AcceptedExactly(rs);
  }

  /** The entries of a sequence of lines, in line order. */
  function ParseLines(lines: seq<string>): (r: seq<Entry>)
    ensures |r| <= |lines|
  {
    Collect(ParseAll(lines))
  }

  /** Entry `k` is the parse of line `Accepted(...)[k]`; those lines ascend;
      a line contributes an entry exactly when it parses to one. */
  lemma EntriesFollowLines(lines: seq<string>)
    ensures var r := ParseLines(lines); var idx := Accepted(ParseAll(lines));
      && |idx| == |r|
      && (forall k :: 0 <= k < |idx| ==> idx[k] < |lines| && ParseLine(lines[idx[k]]) == Some(r[k]))
      && (forall k, l :: 0 <= k < l < |idx| ==> idx[k] < idx[l])
      && (forall i :: 0 <= i < |lines| ==> (ParseLine(lines[i]).Some? <==> i in idx))
  {
    CollectFollowsResults(ParseAll(lines));
  }

  /** Every imported entry is well-formed, and one with a non-empty answer
      re-exports to a line that imports as the same entry. */
  lemma EntriesWellFormed(lines: seq<string>)
    ensures forall k :: 0 <= k < |ParseLines(lines)| ==> WellFormed(ParseLines(lines)[k])
    ensures forall k :: 0 <= k < |ParseLines(lines)| && |ParseLines(lines)[k].answerText| > 0 ==>
      ParseLine(Format(ParseLines(lines)[k])) == Some(ParseLines(lines)[k])
  {
    var r := ParseLines(lines);
    EntriesFollowLines(lines);
    var idx := Accepted(ParseAll(lines));
    forall k | 0 <= k < |r|
      ensures WellFormed(r[k])
    {
      ParsedWellFormed(lines[idx[k]]);
    }
    forall k | 0 <= k < |r| && |r[k].answerText| > 0
      ensures ParseLine(Format(r[k])) == Some(r[k])
    {
      FormatThenParse(r[k]);
    }
  }

  /** `parseText(text)`: the entries of the text's lines, in order; each is
      well-formed, and there are no more of them than lines. */
  method ParseText(text: string) returns (entries: seq<Entry>)
    ensures entries == ParseLines(Lines(text))
    ensures |entries| <= |Lines(text)|
    ensures forall k :: 0 <= k < |entries| ==> WellFormed(entries[k])
  {
    entries := ParseEach(Lines(text));
    EntriesWellFormed(Lines(text));
  }

  /** One more result adds its entry, if it holds one, at the end. */
  lemma CollectStep(rs: seq<Option<Entry>>, i: nat)
    requires i < |rs|
    ensures Collect(rs[..i + 1]) == Collect(rs[..i]) + (if rs[i].Some? then [rs[i].value] else [])
  {
    assert rs[..i + 1][..i] == rs[..i];
  }

  /** The loop of `parseText`: each line's entry, if any, appended in turn. */
  method ParseEach(lines: seq<string>) returns (entries: seq<Entry>)
    ensures entries == ParseLines(lines)
    ensures |entries| <= |lines|
  {
    ghost var rs := ParseAll(lines);
    entries := [];
    var i := 0;
    while i < |lines|
      invariant 0 <= i <= |lines|
      invariant entries == Collect(rs[..i])
    {
      CollectStep(rs, i);
      var parsed := ParseLine(lines[i]);
      assert parsed == rs[i];
      if parsed.Some? {
        entries := entries + [parsed.value];
      }
      i := i + 1;
    }
    assert rs[..|lines|] == rs;
  }

  /** Splitting on line feeds alone would parse to the same entries. */
  lemma CarriageReturnsIrrelevant(text: string)
    ensures ParseLines(Lines(text)) == ParseLines(SplitOn(text, '\n'))
  {
    var lines := Lines(text);
    var parts := SplitOn(text, '\n');
    forall i | 0 <= i < |lines|
      ensures ParseLine(lines[i]) == ParseLine(parts[i])
    {
      if i < |lines| - 1 {
        DropCRKeepsParse(parts[i]);
      }
    }
    assert ParseAll(lines) == ParseAll(parts);
  }
}

=== FILE: text.dfy ===
/** The JavaScript string primitives the core relies on: `trim`,
    `toLowerCase`, `includes` and `split` on a single character. */
module Text {

  /** The characters JavaScript's `String.prototype.trim` removes: the
      WhiteSpace and LineTerminator code points of ECMAScript. */
  predicate IsSpace(c: char) {
    || ('\t' <= c <= '\r')                    // tab, line feed, vertical tab, form feed, carriage return
    || c == ' '
    || c == '\U{00A0}' || c == '\U{1680}'
    || ('\U{2000}' <= c <= '\U{200A}')
    || c == '\U{2028}' || c == '\U{2029}' || c == '\U{202F}' || c == '\U{205F}'
    || c == '\U{3000}' || c == '\U{FEFF}'
  }

  /** A string with no removable space at either end. */
  predicate IsTrimmed(s: string) {
    |s| == 0 || (!IsSpace(s[0]) && !IsSpace(s[|s| - 1]))
  }

  /** `trimStart`: the longest suffix that does not begin with a space. */
  function TrimStart(s: string): (r: string)
    ensures |r| <= |s| && r == s[|s| - |r|..]
    ensures |r| > 0 ==> !IsSpace(r[0])
    decreases |s|
  {
    if |s| > 0 && IsSpace(s[0]) then TrimStart(s[1..]) else s
  }

  /** What `trimStart` drops is all spaces. */
  lemma {:induction false} TrimStartDropsSpaces(s: string)
    ensures forall k :: 0 <= k < |s| - |TrimStart(s)| ==> IsSpace(s[k])
    decreases |s|
  {
    if |s| > 0 && IsSpace(s[0]) {
      TrimStartDropsSpaces(s[1..]);
      forall k | 1 <= k < |s| - |TrimStart(s)|
        ensures IsSpace(s[k])
      {
        assert s[k] == s[1..][k - 1];
      }
    }
  }

  /** `trimEnd`: the longest prefix that does not end with a space. */
  function TrimEnd(s: string): (r: string)
    ensures |r| <= |s| && r == s[..|r|]
    ensures |r| > 0 ==> !IsSpace(r[|r| - 1])
    decreases |s|
  {
    if |s| > 0 && IsSpace(s[|s| - 1]) then TrimEnd(s[..|s| - 1]) else s
  }

  /** What `trimEnd` drops is all spaces. */
  lemma {:induction false} TrimEndDropsSpaces(s: string)
    ensures forall k :: |TrimEnd(s)| <= k < |s| ==> IsSpace(s[k])
    decreases |s|
  {
    if |s| > 0 && IsSpace(s[|s| - 1]) {
      TrimEndDropsSpaces(s[..|s| - 1]);
      forall k | |TrimEnd(s)| <= k < |s| - 1
        ensures IsSpace(s[k])
      {
        assert s[k] == s[..|s| - 1][k];
      }
    }
  }

  /** Number of spaces `trim` removes from the front of `s`. */
  function TrimOffset(s: string): nat
  {
    |s| - |TrimStart(s)|
  }

  /** A prefix `r` of the suffix `t == s[off..]` is the slice of `s` at
      `off`, and begins where `t` does. */
  lemma PrefixOfSuffix(s: string, off: nat, t: string, r: string)
    requires off <= |s| && t == s[off..]
    requires |r| <= |t| && r == t[..|r|]
    ensures off + |r| <= |s| && r == s[off..off + |r|]
    ensures |r| > 0 ==> r[0] == t[0]
  {
  }

  /** `trim`: `s` without its leading and trailing spaces, which is the
      slice of `s` starting at `TrimOffset(s)`. */
  function Trim(s: string): (r: string)
    ensures TrimOffset(s) + |r| <= |s|
    ensures r == s[TrimOffset(s)..TrimOffset(s) + |r|]
    ensures IsTrimmed(r)
  {
    var t := TrimStart(s);
    PrefixOfSuffix(s, |s| - |t|, t, TrimEnd(t));
    TrimEnd(t)
  }

  /** `trim` removes spaces only, and leaves nothing exactly when `s` is
      all spaces. */
  lemma TrimRemovesOnlySpaces(s: string)
    ensures forall k :: 0 <= k < TrimOffset(s) ==> IsSpace(s[k])
    ensures forall k :: TrimOffset(s) + |Trim(s)| <= k < |s| ==> IsSpace(s[k])
    ensures |Trim(s)| == 0 <==> forall k :: 0 <= k < |s| ==> IsSpace(s[k])
  {
    var t := TrimStart(s);
    var off := |s| - |t|;
    var r := Trim(s);
    assert r == TrimEnd(t);
    TrimStartDropsSpaces(s);
    TrimEndDropsSpaces(t);
    forall k | off + |r| <= k < |s|
      ensures IsSpace(s[k])
    {
      assert s[k] == t[k - off];
    }
    if |r| > 0 {
      assert r[0] == t[0] == s[off];
      assert !IsSpace(s[off]);
    }
  }

  /** An all-space string trims to the empty string. */
  lemma TrimAllSpace(s: string)
    requires forall k :: 0 <= k < |s| ==> IsSpace(s[k])
    ensures Trim(s) == []
  {
    TrimRemovesOnlySpaces(s);
  }

  /** Trimming is idempotent: a trimmed string is its own trim. */
  lemma TrimOfTrimmed(s: string)
    requires IsTrimmed(s)
    ensures Trim(s) == s
  {
    var t := TrimStart(s);
    assert t == s;
    var r := TrimEnd(t);
    assert r == s;
  }

  /** A string that begins with a non-space keeps its first character
      under `trim`. */
  lemma TrimKeepsFirst(s: string)
    requires |s| > 0 && !IsSpace(s[0])
    ensures |Trim(s)| > 0 && Trim(s)[0] == s[0]
  {
    assert TrimStart(s) == s;
    TrimRemovesOnlySpaces(s);
  }

  /** Trimming removes characters and adds none. */
  lemma TrimLacks(s: string, c: char)
    requires c !in s
    ensures c !in Trim(s)
  {
    var t := Trim(s);
    var off := TrimOffset(s);
    forall k | 0 <= k < |t|
      ensures t[k] != c
    {
      assert t[k] == s[off + k];
    }
  }

  /** `trimStart` of `s` without a trailing space is `trimStart` of `s`
      without its last character. */
  lemma {:induction false} TrimStartDropLast(s: string)
    requires |s| > 0 && IsSpace(s[|s| - 1])
    ensures var x := TrimStart(s);
      TrimStart(s[..|s| - 1]) == if |x| == 0 then [] else x[..|x| - 1]
    decreases |s|
  {
    if |s| > 1 && IsSpace(s[0]) {
      TrimStartDropLast(s[1..]);
      assert s[..|s| - 1][1..] == s[1..][..|s| - 2];
    }
  }

  /** A trailing space makes no difference to `trim`. */
  lemma TrimDropLast(s: string)
    requires |s| > 0 && IsSpace(s[|s| - 1])
    ensures Trim(s[..|s| - 1]) == Trim(s)
  {
    TrimStartDropLast(s);
    var x := TrimStart(s);
    if |x| > 0 {
      assert x[|x| - 1] == s[|s| - 1];
    }
  }

  /** One character of `toLowerCase`: the ASCII and Latin-1 capitals. */
  function Lower(c: char): char
  {
    if 'A' <= c <= 'Z' || ('\U{00C0}' <= c <= '\U{00DE}' && c != '\U{00D7}')
    then (c as int + 32) as char
    else c
  }

  /** `toLowerCase`, character by character. */
  function LowerStr(s: string): (r: string)
    ensures |r| == |s|
  {
    seq(|s|, i requires 0 <= i < |s| => Lower(s[i]))
  }

  /** `needle` occurs in `hay` starting at position `i`. */
  predicate ContainsAt(hay: string, needle: string, i: int)
  {
    0 <= i && i + |needle| <= |hay| && hay[i..i + |needle|] == needle
  }

  /** `hay.includes(needle)`. */
  predicate Contains(hay: string, needle: string)
  {
    exists i | 0 <= i <= |hay| - |needle| :: ContainsAt(hay, needle, i)
  }

  /** Every string includes the empty string. */
  lemma ContainsEmpty(hay: string)
    ensures Contains(hay, "")
  {
    assert ContainsAt(hay, "", 0);
  }

  /** Position of the first `c` in `s`, or `|s|` when there is none. */
  function IndexOf(s: string, c: char): (i: nat)
    ensures i <= |s|
    ensures forall k :: 0 <= k < i ==> s[k] != c
    ensures i < |s| ==> s[i] == c
  {
    if |s| == 0 then 0
    else if s[0] == c then 0
    else 1 + IndexOf(s[1..], c)
  }

  /** `s.split(sep)` for a one-character separator: the pieces between
      consecutive separators, always at least one. */
  function SplitOn(s: string, sep: char): (parts: seq<string>)
    ensures |parts| >= 1
    decreases |s|
  {
    var i := IndexOf(s, sep);
    if i == |s| then [s] else [s[..i]] + SplitOn(s[i + 1..], sep)
  }

  /** No piece contains the separator. */
  lemma {:induction false} SplitOnPieces(s: string, sep: char)
    ensures forall k :: 0 <= k < |SplitOn(s, sep)| ==> sep !in SplitOn(s, sep)[k]
    decreases |s|
  {
    var i := IndexOf(s, sep);
    if i < |s| {
      SplitOnPieces(s[i + 1..], sep);
      var rest := SplitOn(s[i + 1..], sep);
      assert SplitOn(s, sep) == [s[..i]] + rest;
      assert sep !in s[..i];
    }
  }

  /** There is one more piece than there are separators. */
  lemma {:induction false} SplitOnCount(s: string, sep: char)
    ensures |SplitOn(s, sep)| == multiset(s)[sep] + 1
    decreases |s|
  {
    var i := IndexOf(s, sep);
    if i == |s| {
      assert sep !in s;
    } else {
      SplitOnCount(s[i + 1..], sep);
      assert s == s[..i] + [sep] + s[i + 1..];
      assert sep !in s[..i];
      assert multiset(s) == multiset(s[..i]) + multiset([sep]) + multiset(s[i + 1..]);
    }
  }

  /** `parts.join(sep)`. */
  function Join(parts: seq<string>, sep: char): string
    requires |parts| >= 1
  {
    if |parts| == 1 then parts[0] else parts[0] + [sep] + Join(parts[1..], sep)
  }

  /** A string without the separator is a single piece. */
  lemma SplitOnNone(s: string, sep: char)
    requires sep !in s
    ensures SplitOn(s, sep) == [s]
  {
  }

  /** The text before the first separator is the first piece, and the rest
      is split on its own. */
  lemma SplitOnFirst(q: string, rest: string, sep: char)
    requires sep !in q
    ensures SplitOn(q + [sep] + rest, sep) == [q] + SplitOn(rest, sep)
  {
    var s := q + [sep] + rest;
    assert forall k :: 0 <= k < |q| ==> s[k] == q[k];
    assert forall k :: 0 <= k < |q| ==> s[k] != sep;
    assert s[|q|] == sep;
    assert IndexOf(s, sep) == |q|;
    assert s[..|q|] == q;
    assert s[|q| + 1..] == rest;
  }

  /** Splitting and joining back gives the original string. */
  lemma {:induction false} SplitThenJoin(s: string, sep: char)
    ensures Join(SplitOn(s, sep), sep) == s
    decreases |s|
  {
    var i := IndexOf(s, sep);
    if i < |s| {
      var rest := SplitOn(s[i + 1..], sep);
      SplitThenJoin(s[i + 1..], sep);
      var parts := [s[..i]] + rest;
      assert parts[1..] == rest;
      assert s == s[..i] + [sep] + s[i + 1..];
    }
  }

  /** Joining separator-free pieces and splitting again gives the pieces back. */
  lemma {:induction false} JoinThenSplit(parts: seq<string>, sep: char)
    requires |parts| >= 1
    requires forall k :: 0 <= k < |parts| ==> sep !in parts[k]
    ensures SplitOn(Join(parts, sep), sep) == parts
    decreases |parts|
  {
    if |parts| == 1 {
      SplitOnNone(parts[0], sep);
    } else {
      JoinThenSplit(parts[1..], sep);
      SplitOnFirst(parts[0], Join(parts[1..], sep), sep);
      assert parts == [parts[0]] + parts[1..];
    }
  }
}

=== FILE: trivia.dfy ===
/** The trivia engine: a running flag, the current question and answer, a
    three-stage ask / hint / reveal cycle driven by a ticking timer, and a
    chat poll that handles the stop command and credits the first correct
    answer. Each callback is one atomic step from a `Game` to the next; the
    question store is a sequence, the score collection a map, and the chat
    messages the engine posts an append-only log. */
module Trivia {
  import opened Wrappers
  import opened Text
  import opened Chat

  /** Author name whose messages the chat poll ignores. */
  const BotName: string := "Trivia Bot"
  /** Substring that stops the game. */
  const StopCommand: string := "!stop"
  /** Question text shown when the store is empty. */
  const NoQuestionsText: string := "No questions yet"
  /** Period of the ask / hint / reveal timer, in milliseconds. */
  const TickInterval: nat := 10000
  /** Period of the chat-poll timer, in milliseconds. */
  const ChatPollInterval: nat := 2000

  /** A stored question. */
  datatype Question = Question(id: nat, text: string, answer: string)

  /** A message the engine posts to the chat. */
  datatype Post =
    | Started                               // "Trivia started! First question coming up..."
    | Asked(question: string)               // the question followed by "?"
    | Hint                                  // "Hint: " and the masked answer
    | Revealed(answer: string)              // "Time is up! The correct answer was: ..."
    | StoppedBy(user: string)               // "Trivia stopped by ..."
    | Credited(user: string, answer: string) // "You got it, ...! ... The correct answer was: ..."

  /** The engine's fields. `stage` is 0 (ask next), 1 (hint next) or 2
      (reveal next); a timer is the period it repeats with, `None` when
      cleared; `liveChatId` is "" until the first start. */
  datatype Engine = Engine(
    running: bool,
    question: Option<string>,
    answer: Option<string>,
    questionId: Option<nat>,
    stage: int,
    answered: bool,
    askTime: Option<int>,
    liveChatId: string,
    lastPageToken: Option<string>,
    questionTimer: Option<nat>,
    pollTimer: Option<nat>)

  /** The engine together with the score collection and the chat log. */
  datatype Game = Game(engine: Engine, scores: map<string, nat>, sent: seq<Post>)

  /** What `getState` reports (never the answer). */
  datatype Snapshot = Snapshot(
    running: bool,
    currentQuestion: Option<string>,
    stage: int,
    questionAnswered: bool,
    askTime: Option<int>)

  /** The freshly constructed engine. */
  function Initial(): Engine
  {
    Engine(false, None, None, None, 0, false, None, "", None, None, None)
  }

  /** JavaScript truthiness of a nullable string. */
  predicate Truthy(s: Option<string>)
  {
    s.Some? && s.value != ""
  }

  /** A random index into the store is in range whenever the store is not empty. */
  predicate PickInRange(store: seq<Question>, pick: nat)
  {
    |store| == 0 || pick < |store|
  }

  /** The invariant of every reachable engine: the stage is 0, 1 or 2; both
      timers are armed exactly while running; question and answer are set
      together, and an id only with them. */
  predicate Valid(e: Engine)
  {
    && 0 <= e.stage <= 2
    && e.questionTimer == (if e.running then Some(TickInterval) else None)
    && e.pollTimer == (if e.running then Some(ChatPollInterval) else None)
    && (e.question.Some? <==> e.answer.Some?)
    && (e.questionId.Some? ==> e.question.Some?)
  }

  lemma InitialIsValid()
    ensures Valid(Initial())
  {
  }

  /** A user's score: the stored value, 0 for a user with no record. */
  function ScoreOf(scores: map<string, nat>, user: string): nat
  {
    if user in scores then scores[user] else 0
  }

  /** `_awardPoint(user)`: increment the user's score, creating the record
      when absent; every other score stays. */
  function AwardPoint(scores: map<string, nat>, user: string): (r: map<string, nat>)
    ensures ScoreOf(r, user) == ScoreOf(scores, user) + 1
    ensures forall u :: u != user ==> ScoreOf(r, u) == ScoreOf(scores, u)
    ensures r.Keys == scores.Keys + {user}
  {
    scores[user := ScoreOf(scores, user) + 1]
  }

  /** `_loadNewQuestion()` with `pick` standing for the random index. An
      empty store yields the placeholder question with an empty answer and
      no id, and leaves stage and answered flag alone; otherwise a stored
      question is copied in with its own answer and id, and the cycle
      restarts at stage 0, unanswered. Nothing else changes. */
  function LoadNewQuestion(e: Engine, store: seq<Question>, pick: nat): (r: Engine)
    requires PickInRange(store, pick)
    ensures |store| == 0 ==>
      && r.question == Some(NoQuestionsText) && r.answer == Some("") && r.questionId.None?
      && r.stage == e.stage && r.answered == e.answered
    ensures |store| > 0 ==>
      && (exists q :: q in store && r.question == Some(q.text) && r.answer == Some(q.answer) && r.questionId == Some(q.id))
      && r.stage == 0 && !r.answered
    ensures r == e.(question := r.question, answer := r.answer, questionId := r.questionId,
                    stage := r.stage, answered := r.answered)
    ensures Valid(e) ==> Valid(r)
  {
    if |store| == 0 then
      e.(question := Some(NoQuestionsText), answer := Some(""), questionId := None)
    else
      var q := store[pick];
      e.(question := Some(q.text), answer := Some(q.answer), questionId := Some(q.id),
         stage := 0, answered := false)
  }

  /** `start(liveChatId)`: a no-op while running; otherwise set running,
      bind the chat, reset the stage and the answered flag, load a question,
      arm both timers and announce the start. */
  function Start(g: Game, liveChatId: string, store: seq<Question>, pick: nat, sendOk: bool): (r: Game)
    requires PickInRange(store, pick)
    ensures g.engine.running ==> r == g
    ensures !g.engine.running ==>
      && r.engine.running && r.engine.liveChatId == liveChatId
      && r.engine.stage == 0 && !r.engine.answered
      && r.engine.question.Some?
      && r.engine.questionTimer == Some(TickInterval) && r.engine.pollTimer == Some(ChatPollInterval)
      && r.engine.lastPageToken == g.engine.lastPageToken && r.engine.askTime == g.engine.askTime
      && r.scores == g.scores
      && r.sent == g.sent + (if sendOk then [Started] else [])
    ensures !g.engine.running && |store| > 0 ==>
      && r.engine.question == Some(store[pick].text) && r.engine.answer == Some(store[pick].answer)
      && r.engine.questionId == Some(store[pick].id)
    ensures !g.engine.running && |store| == 0 ==>
      r.engine.question == Some(NoQuestionsText) && r.engine.answer == Some("") && r.engine.questionId.None?
    ensures Valid(g.engine) ==> Valid(r.engine)
  {
    if g.engine.running then g
    else
      var e1 := g.engine.(running := true, liveChatId := liveChatId, stage := 0, answered := false);
      var e2 := LoadNewQuestion(e1, store, pick);
      var e3 := e2.(questionTimer := Some(TickInterval), pollTimer := Some(ChatPollInterval));
      Game(e3, g.scores, g.sent + (if sendOk then [Started] else []))
  }

  /** Whether the start announcement is accepted changes only the chat log:
      the engine and the scores are the same either way. A rejected
      announcement is exactly the case in which `start()` rejects to its
      caller, after the game is already running. */
  lemma StartAnnouncementOnlyLogs(g: Game, liveChatId: string, store: seq<Question>, pick: nat)
    requires PickInRange(store, pick)
    ensures var ok := Start(g, liveChatId, store, pick, true);
      var failed := Start(g, liveChatId, store, pick, false);
      && ok.engine == failed.engine && ok.scores == failed.scores
      && (!g.engine.running ==> ok.sent == failed.sent + [Started] && failed.engine.running)
  {
  }

  /** `stop()`: clear the running flag and both timers; the question,
      answer, stage and answered flag stay as they were. */
  function Stop(e: Engine): (r: Engine)
    ensures !r.running && r.questionTimer.None? && r.pollTimer.None?
    ensures r == e.(running := r.running, questionTimer := r.questionTimer, pollTimer := r.pollTimer)
    ensures Valid(e) ==> Valid(r)
  {
    e.(running := false, questionTimer := None, pollTimer := None)
  }

  /** Starting a running game, or stopping a stopped one, changes nothing. */
  lemma StartStopIdempotent(g: Game, liveChatId: string, store: seq<Question>, pick: nat, sendOk: bool)
    requires PickInRange(store, pick)
    ensures var s := Start(g, liveChatId, store, pick, sendOk);
      Start(s, liveChatId, store, pick, sendOk) == s
    ensures Stop(Stop(g.engine)) == Stop(g.engine)
  {
  }

  /** `getState()`: the dashboard's view, which never carries the answer.
      In a reachable state it reports a stage of 0, 1 or 2. */
  function GetState(e: Engine): (r: Snapshot)
    ensures r.running == e.running && r.currentQuestion == e.question
    ensures r.stage == e.stage && r.questionAnswered == e.answered && r.askTime == e.askTime
    ensures Valid(e) ==> 0 <= r.stage <= 2
  {
    Snapshot(e.running, e.question, e.stage, e.answered, e.askTime)
  }

  /** Stopping changes nothing the dashboard sees except the running flag. */
  lemma StopKeepsSnapshot(e: Engine)
    ensures GetState(Stop(e)) == GetState(e).(running := false)
  {
  }

  /** `_questionTick()` with `now` for the clock and `sendOk` for whether
      the chat accepts the post. It does nothing unless the game runs with a
      question. Stage 0 records the ask time, moves to stage 1 and posts
      the question; stage 1 moves to stage 2 and posts the hint; stage 2
      posts the reveal and loads the next question, unless the post fails,
      which skips the load. The stage and ask time are set before the post,
      so a failed post at stage 0 or 1 still advances. Scores never change. */
  function Tick(g: Game, store: seq<Question>, pick: nat, now: int, sendOk: bool): (r: Game)
    requires PickInRange(store, pick)
    ensures !g.engine.running || !Truthy(g.engine.question) ==> r == g
    ensures g.engine.running && Truthy(g.engine.question) && g.engine.stage == 0 ==>
      r.engine == g.engine.(stage := 1, askTime := Some(now))
    ensures g.engine.running && Truthy(g.engine.question) && g.engine.stage == 1 ==>
      r.engine == g.engine.(stage := 2)
    ensures g.engine.running && Truthy(g.engine.question) && g.engine.stage == 2 && sendOk ==>
      && r.engine == LoadNewQuestion(g.engine, store, pick)
      && r.sent == g.sent + [Revealed(g.engine.answer.GetOr("null"))]
    ensures g.engine.stage == 2 && !sendOk ==> r == g
    ensures !(0 <= g.engine.stage <= 2) ==> r == g
    ensures r.scores == g.scores
    ensures r.sent == g.sent || (sendOk && |r.sent| == |g.sent| + 1 && r.sent[..|g.sent|] == g.sent)
    ensures Valid(g.engine) ==> Valid(r.engine)
  {
    var e := g.engine;
    if !e.running || !Truthy(e.question) then g
    else if e.stage == 0 then
      Game(e.(stage := 1, askTime := Some(now)), g.scores,
           g.sent + (if sendOk then [Asked(e.question.value)] else []))
    else if e.stage == 1 then
      Game(e.(stage := 2), g.scores, g.sent + (if sendOk then [Hint] else []))
    else if e.stage == 2 then
      if sendOk then
        Game(LoadNewQuestion(e, store, pick), g.scores, g.sent + [Revealed(e.answer.GetOr("null"))])
      else g
    else g
  }

  /** Ticks in sequence, all posts accepted, with the same pick each reload. */
  function Ticks(g: Game, n: nat, store: seq<Question>, pick: nat, now: int): (r: Game)
    requires PickInRange(store, pick)
    decreases n
  {
    if n == 0 then g else Ticks(Tick(g, store, pick, now, true), n - 1, store, pick, now)
  }

  /** One full cycle: from stage 0 of a running game with a question, three
      ticks post the question, the hint and the answer, in that order, and
      a non-empty store then supplies the next question at stage 0. */
  lemma TickCycle(g: Game, store: seq<Question>, pick: nat, now: int)
    requires PickInRange(store, pick) && |store| > 0
    requires g.engine.running && Truthy(g.engine.question) && g.engine.stage == 0
    ensures var r := Ticks(g, 3, store, pick, now);
      && r.sent == g.sent + [Asked(g.engine.question.value), Hint, Revealed(g.engine.answer.GetOr("null"))]
      && r.engine.stage == 0 && !r.engine.answered
      && r.engine.question == Some(store[pick].text)
      && r.engine.askTime == Some(now)
  {
    var g1 := Tick(g, store, pick, now, true);
    var g2 := Tick(g1, store, pick, now, true);
    var g3 := Tick(g2, store, pick, now, true);
    assert g1.engine.stage == 1 && g2.engine.stage == 2;
    assert Ticks(g, 3, store, pick, now) == g3 by {
      assert Ticks(g, 3, store, pick, now) == Ticks(g1, 2, store, pick, now);
      assert Ticks(g1, 2, store, pick, now) == Ticks(g2, 1, store, pick, now);
      assert Ticks(g2, 1, store, pick, now) == Ticks(g3, 0, store, pick, now);
    }
  }

  /** A message from the bot itself. */
  predicate IsBot(m: ChatMessage)
  {
    m.author == BotName
  }

  /** A message carrying the stop command (case-sensitive, anywhere). */
  predicate IsStop(m: ChatMessage)
  {
    Contains(m.text, StopCommand)
  }

  /** The lower-cased text contains the lower-cased answer. */
  predicate Matches(m: ChatMessage, answer: string)
  {
    Contains(LowerStr(m.text), LowerStr(answer))
  }

  /** A message the poll reacts to: not from the bot, and either a stop
      command or a match while the question is still open. */
  predicate Acts(m: ChatMessage, answer: string, answered: bool)
  {
    !IsBot(m) && (IsStop(m) || (!answered && Matches(m, answer)))
  }

  /** What the poll's loop does with a batch: nothing, stop at a message,
      or credit a message. */
  datatype Verdict = Idle | StopAt(at: nat) | CreditAt(at: nat)

  /** The poll's loop from position `i`: the first message that acts
      decides, a stop command taking precedence over a match in the same
      message. */
  function FirstAction(msgs: seq<ChatMessage>, answer: string, answered: bool, i: nat): (v: Verdict)
    requires i <= |msgs|
    ensures v.Idle? ==> forall j :: i <= j < |msgs| ==> !Acts(msgs[j], answer, answered)
    ensures v.StopAt? ==>
      && i <= v.at < |msgs| && !IsBot(msgs[v.at]) && IsStop(msgs[v.at])
      && forall j :: i <= j < v.at ==> !Acts(msgs[j], answer, answered)
    ensures v.CreditAt? ==>
      && i <= v.at < |msgs| && !IsBot(msgs[v.at]) && !IsStop(msgs[v.at])
      && !answered && Matches(msgs[v.at], answer)
      && forall j :: i <= j < v.at ==> !Acts(msgs[j], answer, answered)
    decreases |msgs| - i
  {
    if i == |msgs| then Idle
    else if IsBot(msgs[i]) then FirstAction(msgs, answer, answered, i + 1)
    else if IsStop(msgs[i]) then StopAt(i)
    else if !answered && Matches(msgs[i], answer) then CreditAt(i)
    else FirstAction(msgs, answer, answered, i + 1)
  }

  /** The chat poll runs only while running, with a non-empty answer and a
      bound chat. */
  predicate PollActive(e: Engine)
  {
    e.running && Truthy(e.answer) && e.liveChatId != ""
  }

  /** `_pollChat()` with `fetch` for the feed's reply, `pick` for the random
      index of a reload and `sendOk` for whether the chat accepts the post.
      The cursor takes whatever token the feed returned. The first message
      that acts decides: a stop command stops the game and announces who
      stopped it; a match marks the question answered and, if the credit
      is posted, awards the author a point and loads the next question. */
  function PollChat(g: Game, store: seq<Question>, fetch: Fetch, pick: nat, sendOk: bool): (r: Game)
    requires PickInRange(store, pick)
    ensures !PollActive(g.engine) || fetch.FetchFailed? ==> r == g
    ensures PollActive(g.engine) && fetch.Fetched? ==> r.engine.lastPageToken == fetch.batch.nextPageToken
    ensures (&& PollActive(g.engine) && fetch.Fetched?
             && FirstAction(fetch.batch.messages, g.engine.answer.value, g.engine.answered, 0).Idle?)
      ==> r == g.(engine := g.engine.(lastPageToken := fetch.batch.nextPageToken))
    ensures PollActive(g.engine) && fetch.Fetched? ==>
      var b := fetch.batch;
      var v := FirstAction(b.messages, g.engine.answer.value, g.engine.answered, 0);
      var e1 := g.engine.(lastPageToken := b.nextPageToken);
      && (v.StopAt? ==>
            && r.engine == Stop(e1) && r.scores == g.scores
            && r.sent == g.sent + (if sendOk then [StoppedBy(b.messages[v.at].author)] else []))
      && (v.CreditAt? && !sendOk ==> r == g.(engine := e1.(answered := true)))
      && (v.CreditAt? && sendOk ==>
            && r.engine == LoadNewQuestion(e1.(answered := true), store, pick)
            && r.scores == AwardPoint(g.scores, b.messages[v.at].author)
            && r.sent == g.sent + [Credited(b.messages[v.at].author, g.engine.answer.value)])
    ensures r.sent == g.sent || (sendOk && |r.sent| == |g.sent| + 1 && r.sent[..|g.sent|] == g.sent)
    ensures r.scores == g.scores
      || (&& fetch.Fetched? && !g.engine.answered
          && exists k :: 0 <= k < |fetch.batch.messages|
               && Matches(fetch.batch.messages[k], g.engine.answer.value)
               && r.scores == AwardPoint(g.scores, fetch.batch.messages[k].author))
    ensures Valid(g.engine) ==> Valid(r.engine)
  {
    var e := g.engine;
    if !PollActive(e) then g
    else match fetch
      case FetchFailed => g
      case Fetched(b) =>
        var e1 := e.(lastPageToken := b.nextPageToken);
        match FirstAction(b.messages, e.answer.value, e.answered, 0)
        case Idle => g.(engine := e1)
        case StopAt(k) =>
          Game(Stop(e1), g.scores, g.sent + (if sendOk then [StoppedBy(b.messages[k].author)] else []))
        case CreditAt(k) =>
          var winner := b.messages[k].author;
          var e2 := e1.(answered := true);
          if !sendOk then g.(engine := e2)
          else Game(LoadNewQuestion(e2, store, pick), AwardPoint(g.scores, winner),
                    g.sent + [Credited(winner, e.answer.value)])
  }

  /** An empty answer is contained in every message, so only the guard on
      the answer keeps the poll from crediting every message. */
  lemma EmptyAnswerMatchesAll(m: ChatMessage)
    ensures Matches(m, "")
  {
    assert LowerStr("") == "";
    ContainsEmpty(LowerStr(m.text));
  }

  /** Once the question is answered, no message earns a point. */
  lemma NoCreditOnceAnswered(g: Game, store: seq<Question>, fetch: Fetch, pick: nat, sendOk: bool)
    requires PickInRange(store, pick) && g.engine.answered
    ensures PollChat(g, store, fetch, pick, sendOk).scores == g.scores
  {
  }

  /** A batch whose first acting message carries the stop command stops the
      game, credits nobody, and leaves the rest of the batch unexamined. */
  lemma StopCommandStops(g: Game, store: seq<Question>, b: Batch, pick: nat, sendOk: bool)
    requires PickInRange(store, pick) && PollActive(g.engine)
    requires FirstAction(b.messages, g.engine.answer.value, g.engine.answered, 0).StopAt?
    ensures var r := PollChat(g, store, Fetched(b), pick, sendOk);
      && !r.engine.running && r.engine.pollTimer.None? && r.engine.questionTimer.None?
      && r.scores == g.scores
      && r.engine.question == g.engine.question && r.engine.answered == g.engine.answered
      && r.engine == Stop(g.engine.(lastPageToken := b.nextPageToken))
      && r.sent == g.sent + (if sendOk then [StoppedBy(b.messages[FirstAction(b.messages, g.engine.answer.value, g.engine.answered, 0).at].author)] else [])
  {
  }

  /** When the first acting message is a match and the credit is posted,
      its author, and no one else, gains exactly one point, and the next
      question from the store is open. */
  lemma MatchCreditsOnce(g: Game, store: seq<Question>, b: Batch, pick: nat)
    requires PickInRange(store, pick) && |store| > 0 && PollActive(g.engine)
    requires FirstAction(b.messages, g.engine.answer.value, g.engine.answered, 0).CreditAt?
    ensures var k := FirstAction(b.messages, g.engine.answer.value, g.engine.answered, 0).at;
      var winner := b.messages[k].author;
      var r := PollChat(g, store, Fetched(b), pick, true);
      && !g.engine.answered
      && ScoreOf(r.scores, winner) == ScoreOf(g.scores, winner) + 1
      && (forall u :: u != winner ==> ScoreOf(r.scores, u) == ScoreOf(g.scores, u))
      && r.sent == g.sent + [Credited(winner, g.engine.answer.value)]
      && r.engine.question == Some(store[pick].text) && !r.engine.answered && r.engine.stage == 0
  {
  }

  /** With an empty store, a posted credit still awards the point, but the
      reload installs the placeholder with an empty answer and leaves the
      answered flag set: the chat poll goes quiet until a restart. */
  lemma CreditOnEmptyStoreSilencesPoll(g: Game, b: Batch, pick: nat)
    requires PollActive(g.engine)
    requires FirstAction(b.messages, g.engine.answer.value, g.engine.answered, 0).CreditAt?
    ensures var r := PollChat(g, [], Fetched(b), pick, true);
      && r.engine.answered && r.engine.question == Some(NoQuestionsText)
      && r.engine.running && !PollActive(r.engine)
  {
  }

  /** A failed credit post leaves the question marked answered with no
      point awarded and no new question loaded. */
  lemma FailedCreditPostKeepsAnswered(g: Game, store: seq<Question>, b: Batch, pick: nat)
    requires PickInRange(store, pick) && PollActive(g.engine)
    requires FirstAction(b.messages, g.engine.answer.value, g.engine.answered, 0).CreditAt?
    ensures var r := PollChat(g, store, Fetched(b), pick, false);
      && r.engine.answered && r.scores == g.scores && r.sent == g.sent
      && r.engine.question == g.engine.question
  {
  }

  /** A character absent from the places a needle could start rules the
      needle out. */
  lemma NotContainsByFirst(hay: string, needle: string)
    requires |needle| > 0 && |needle| <= |hay|
    requires needle[0] !in hay[..|hay| - |needle| + 1]
    ensures !Contains(hay, needle)
  {
    forall i | 0 <= i <= |hay| - |needle|
      ensures !ContainsAt(hay, needle, i)
    {
      assert hay[..|hay| - |needle| + 1][i] == hay[i];
    }
  }

  /** A round with one stored question: after the start and the first tick
      the question is posted; a viewer's message containing the answer then
      earns that viewer their first point, the credit is posted, and the
      (only) question is reloaded at stage 0, to be asked on the next tick. A message by the bot
      itself containing the answer earns nothing. */
  lemma OneQuestionRound()
    ensures var store := [Question(1, "2+2", "4")];
      var g1 := Start(Game(Initial(), map[], []), "chat", store, 0, true);
      var g2 := Tick(g1, store, 0, 0, true);
      var bot := ChatMessage("m0", BotName, "the answer is 4");
      var bob := ChatMessage("m1", "Bob", "the answer is 4!!");
      var g3 := PollChat(g2, store, Fetched(Batch([bot, bob], Some("p1"), None)), 0, true);
      && g2.sent == [Started, Asked("2+2")]
      && ScoreOf(g3.scores, "Bob") == 1
      && ScoreOf(g3.scores, BotName) == 0
      && g3.sent == [Started, Asked("2+2"), Credited("Bob", "4")]
      && g3.engine.question == Some("2+2") && g3.engine.stage == 0 && !g3.engine.answered
  {
    var store := [Question(1, "2+2", "4")];
    var g1 := Start(Game(Initial(), map[], []), "chat", store, 0, true);
    var g2 := Tick(g1, store, 0, 0, true);
    var bot := ChatMessage("m0", BotName, "the answer is 4");
    var bob := ChatMessage("m1", "Bob", "the answer is 4!!");
    var msgs := [bot, bob];
    assert g2.engine.answer == Some("4") && !g2.engine.answered;
    assert IsBot(bot);
    var t := bob.text;
    NotContainsByFirst(t, StopCommand);
    var lt := LowerStr(t);
    assert lt[14] == '4';
    assert lt[14..15] == LowerStr("4");
    assert ContainsAt(lt, LowerStr("4"), 14);
    assert Matches(bob, "4");
    assert FirstAction(msgs, "4", false, 1) == CreditAt(1);
    assert FirstAction(msgs, "4", false, 0) == CreditAt(1);
  }
}

=== FILE: wrappers.dfy ===
/** Optional values and results with an error message, standing in for
    JavaScript's `null`/`undefined` and for thrown errors. */
module Wrappers {

  /** A value that may be absent (`null` or `undefined` in the source). */
  datatype Option<+T> = None | Some(value: T) {

    /** The value, or `default` when absent. */
    function GetOr(default: T): T {
      match this
      case Some(v) => v
      case None => default
    }
  }

  /** The outcome of an operation that may throw. */
  datatype Result<+T> = Success(value: T) | Failure(error: string)
}
